=== FILE: README.md ===
# MiniWasilni graph core in Dafny

MiniWasilni is a small route planner over a directed, weighted graph of
cities. This project models its algorithmic core, with each C++ routine
written as a pure Dafny function or as a method over immutable values:

- **Graph store** (`graph.dfy`, module `Graph`). The adjacency map runs from a
  city name to its ordered list of `(target, distance)` entries. Its four
  mutators are `addCity`, `addEdge`, `deleteCity` and `deleteEdge`.
- **Depth-first and breadth-first traversals** (`traversal.dfy`). The printed
  "Visiting" order is returned as a sequence.
- **The stand-alone BFS helper class** (`bsf.dfy`, built on the shared
  breadth-first scan in `bfs.dfy`). It loads an unweighted copy of the
  adjacency, gives a breadth-first order, and finds a fewest-hops path by
  following parents back to the `""` sentinel.
- **Dijkstra's search** (`dijkstra.dfy`). It uses a lazy priority queue with a
  stale-entry skip and an early exit at the goal.
- **A\* search** (`astar.dfy`). It relaxes edges the same way as Dijkstra,
  with queue priority distance plus `h(city, goal)`. It has no stale-entry
  check and no closed set, and the heuristic `h` is a parameter. Both
  searches share the queue, the relaxation step, the invariant and the
  predecessor walk in `search.dfy`.
- **The save/load text format** (`codec.dfy`). `Encode` and `Decode` work on
  lines; `Save` and `Load` work on text. The decimal writing and reading that
  the C++ streams perform are in `decimal.dfy`.

`hops.dfy` defines walks, reachability and hop distance over an unweighted
adjacency. `wrappers.dfy` holds `Option` and `Result`.

## Model

| member | source | states |
|---|---|---|
| Graph.AddCity | src/Graph.cpp:9-19 | A new name becomes a city with an empty neighbour list. A known name leaves the graph unchanged. No other list changes, and "every target is a city" is preserved. |
| Graph.AddEdge | src/Graph.cpp:23-48 | `from` is always a key afterwards. If `(to, dist)` is already in `from`'s list, nothing is added (AlreadyExists). Otherwise, if `to` is a city (or is `from`), the entry is appended at the end (Added). Otherwise the list is unchanged (CityNotFound(to)). Every other city's list is untouched, and well-formedness is preserved. |
| Graph.RemoveTarget | src/Graph.cpp:76-87 | The surviving entries are exactly those not targeting the name, and their count is the number of such entries. |
| Graph.RemoveTargetPosition | src/Graph.cpp:76-87 | Each surviving entry lands at the position given by the number of survivors before it, so the relative order is preserved. |
| Graph.DeleteCity | src/Graph.cpp:73-91 | The city is no longer a key. Each remaining list keeps exactly its entries not targeting it (as many as there are, each in its original relative order), so no entry targets it. Well-formedness is preserved. |
| Graph.DeleteEdge | src/Graph.cpp:94-117 | If either city is unknown, the graph is unchanged and the unknown name is reported. Otherwise every `from -> to` and every `to -> from` entry is removed. The other entries of both lists survive with their count and relative order, every other list is unchanged, and well-formedness is preserved. |
| Graph.RemoveTargetFilters | src/Graph.cpp:79-86 | The filter keeps as many entries as do not target the name, and each of them lands at the position given by the number of survivors before it, so order and repetitions are kept. |
| Graph.DeleteCityUndoesAddCity | src/Graph.cpp:9-19 | In a well-formed graph, deleting a freshly added city gives back the original graph. |
| Graph.DeleteEdgeUndoesAddEdge | src/Graph.cpp:94-117 | Deleting an edge just added (with no earlier entry towards that target) restores the source city's list. |
| Graph.RemoveTargetAppend | src/Graph.cpp:105-108 | Filtering out a target distributes over concatenation of neighbour lists. |
| Bfs.Explore | src/BSF.cpp:46-68 | The queue scan returns the start first and each city at most once, with hop distance never decreasing along the result. Each city's level is its true hop distance. Without an early stop, it returns exactly the reachable cities. With a stop city, that city is returned iff it is reachable. |
| Traversal.Pushed | src/Traversal.cpp:64-71 | The cities pushed are exactly the unvisited neighbours. When the first neighbour is unvisited, it ends up on top of the stack. |
| Traversal.DfsOrder | src/Traversal.cpp:50-73 | The stack loop visits the start first, each city at most once, and exactly the cities reachable from the start. At each step, an unvisited first successor of the last visited city is visited next. |
| Traversal.Dfs | src/Traversal.cpp:38-75 | An unknown start gives nothing. Otherwise the start comes first, no city repeats, the visited set is exactly the reachable set, and the first-neighbour rule holds at each step. |
| Traversal.DfsSecond | src/Traversal.cpp:64-71 | When the start's first-listed neighbour is another city, it is the second city visited. |
| Traversal.BfsOrder | src/Traversal.cpp:78-112 | An unknown start gives nothing. Otherwise the start comes first, no city repeats, the emitted set is exactly the reachable set, and hop distance from the start never decreases along the order. |
| BSF.LoadFromWeightedGraph | src/BSF.cpp:12-19 | The previous contents are replaced. A city has an entry iff its list is non-empty, and the entry is its targets in order with the weights dropped. |
| BSF.LoadedSameSucc | src/BSF.cpp:12-19 | The loaded adjacency gives every city the same successors as the weighted graph. |
| BSF.LoadedReaches | src/BSF.cpp:12-19 | A city is reachable over the loaded adjacency iff it is reachable over the weighted graph. |
| BSF.Traverse | src/BSF.cpp:21-44 | The start is printed first, then each reachable city exactly once, with hop distance never decreasing. |
| BSF.WalkBack | src/BSF.cpp:76-80 | Following parents from the end gives a walk ending at the end. When no discovered city is `""`, the walk starts at the start and has the end's level plus one cities. |
| BSF.ShortestPath | src/BSF.cpp:46-82 | An unreachable end gives the empty path. A non-empty path is a walk ending at the end. When `""` is not a city reachable from the start, a reachable end gives a path from the start with the fewest hops possible. |
| Search.PopMin | src/Dijkstra.cpp:38-41 | The popped entry comes from the queue and is least in (priority, name) order, as `greater<pair<int,string>>` makes it. It is removed exactly once. |
| Search.MinExists | src/Dijkstra.cpp:27-29 | Every non-empty queue has a least entry in (priority, name) order. |
| Search.Improve | src/Dijkstra.cpp:50-57 | After relaxing one edge, the target's distance is at most the source's distance plus the weight. No distance grows, and nothing else changes. When the edge improves the target, the predecessor is recorded and an entry is queued. Otherwise the state is unchanged. |
| Search.Relax | src/Dijkstra.cpp:50-58 | Relaxing all edges of a city keeps the search invariant and settles the city. Its own distance is unchanged, every distance only decreases, and every edge of the city ends up relaxed. |
| Search.Initial | src/Dijkstra.cpp:32-36 | The start at distance 0, with one queued entry and no predecessors, satisfies the search invariant. |
| Search.PopIsOptimal | src/Dijkstra.cpp:47 | With non-negative weights and zero heuristic, the least queued entry's city has a recorded distance no walk from the start undercuts. |
| Search.Exhausted | src/Dijkstra.cpp:62-65 | When the queue empties without reaching the goal, the goal is still at infinity and no walk connects start and goal. |
| Search.ViewConnected | src/Traversal.cpp:102-107 | A city is reachable by hops over the targets the traversals follow (weights ignored) exactly when a weighted walk leads there, in both directions. So the traversals reach exactly the cities the searches can find a path to. |
| Search.ReconstructPath | src/Dijkstra.cpp:73-87 | Walking predecessors back from the end gives a walk from start to end along graph edges. Its weight is at most the end's recorded distance, and it is `[start]` when start and end coincide. |
| Search.MinCostUnique | src/AStar.cpp:43-46 | Any two least walk weights between the same cities are equal, so zero-heuristic A\* and Dijkstra report the same cost. |
| Dijkstra.Round | src/Dijkstra.cpp:38-59 | One loop pass keeps the invariant. It either stops at the end city with a distance no walk undercuts, or makes progress (a distance drops or the queue shrinks). |
| Dijkstra.Dijkstra | src/Dijkstra.cpp:9-70 | "Not found" iff the start or end is unknown. "No path" iff both are known and no walk connects them. Otherwise the path is a walk from start to end whose weights add up to the reported distance, no walk weighs less, and start = end gives `[start]` at distance 0. |
| AStar.Round | src/AStar.cpp:81-107 | One loop pass keeps the invariant. It either stops at the goal (optimal under a zero heuristic) or makes progress. |
| AStar.FindPath | src/AStar.cpp:54-112 | An unknown start or goal gives the empty path. With both known, the path is empty iff no walk connects them. A non-empty path is a walk from start to goal weighing at most the cost, and start = goal gives `[start]` at cost 0. With the zero heuristic, the cost is the least walk weight and equals the path's weight. |
| Decimal.NextWord | src/IOManager.cpp:79 | Extracting a word skips a white-space prefix of the input and returns the longest run of non-space characters after it, with the rest of the input. It fails exactly when only white space remains. |
| Decimal.WordAfter | src/IOManager.cpp:79 | After any white space, a non-empty word followed by white space or the end is read as that word, leaving the rest. |
| Decimal.ParseIntOf | src/IOManager.cpp:79 | After any white space, an optional `+` or `-` and a run of digits read as the digits' value, negated after `-` (leading zeros allowed, trailing text ignored). A value outside 32 bits fails. |
| Decimal.ParseIntNone | src/IOManager.cpp:79 | Extraction fails when no digit follows the white space and the optional sign. |
| Decimal.WordBack | src/IOManager.cpp:46 | A non-empty, white-space-free word followed by a space (or nothing) is read back as itself, leaving the rest. |
| Decimal.IntBack | src/IOManager.cpp:46 | Reading an integer back from what `<<` wrote gives the same value, for every 32-bit value. |
| Decimal.LinesBack | src/IOManager.cpp:66-74 | Splitting with `getline` a text written line by line with `endl` gives back the lines, provided none holds a newline. |
| Codec.EncodeLayout | src/IOManager.cpp:35-48 | An encoding holds the cities one per line in iteration order, then one empty line, then the edge section, with one line per adjacency entry. |
| Codec.AllEdgeLinesAt | src/IOManager.cpp:42-48 | Entry `j` of the `i`-th city is written, as `from to dist`, at the position given by the number of entries of the cities before it plus `j`. So each city's block is in list order. |
| Codec.LoadCities | src/IOManager.cpp:66-71 | Every line before the first empty line becomes a city (all lines, if there is none). Existing cities keep their lists, new cities get empty lists, the lines after the separator are left for the edge loop, and well-formedness is preserved. |
| Codec.ParseEdgeOf | src/IOManager.cpp:76-79 | Two white-space-separated words, after any white space, are read as source and target. The line is accepted exactly when what follows reads as an integer, which becomes the distance, and anything after that integer is ignored. |
| Codec.ParseEdgeOneWord | src/IOManager.cpp:79 | A line holding a single word is rejected. |
| Codec.SpacedTargetDropped | src/IOManager.cpp:76-79 | The edge line written for a target whose name holds a space (such as "Port Sudan") is skipped on loading when the name's second word does not start like an integer. |
| Codec.SpacedSourceDropped | src/IOManager.cpp:76-79 | The edge line written for a source whose name holds a space is skipped on loading when its target does not start like an integer. |
| Codec.EdgeLineBackRest | src/IOManager.cpp:46 | A written edge line followed by extra tokens still parses back to its source, target and distance. |
| Codec.LoadEdgeLine | src/IOManager.cpp:79-82 | A line that does not parse leaves the graph unchanged. A parsed line makes its source a city. If the same (target, distance) entry is already in the source's list, the list stays as it was. Otherwise, if the target is a city or is the source itself, the entry is appended once at the end, and if not, the list stays as it was. No other list changes, and well-formedness is preserved. |
| Codec.LoadEdges | src/IOManager.cpp:74-83 | The cities after the edge loop are the old ones plus the sources of the parsed lines. Every parsed line whose target was already a city has its entry in the result, and every existing entry survives as a prefix of its list. |
| Codec.LoadEdgesList | src/IOManager.cpp:74-83 | After the edge loop, each city's list is exactly `LoadList`: its old list (empty for a new city) run through the lines one at a time. Each parsed line from that city appends its entry unless the entry is already listed or its target is neither a city so far nor the city itself. The cities so far grow by each parsed line's source. |
| Codec.LoadListPrefix | src/Graph.cpp:47 | The edge loop only appends, so a city's list before loading is a prefix of its list afterwards. |
| Codec.LoadListNewOnce | src/Graph.cpp:25-33 | Every entry the edge loop appends differs from every entry before it in the list, so a repeated edge line adds its entry at most once. |
| Codec.LoadListFromLines | src/IOManager.cpp:74-83 | The entries the edge loop appends to a city's list come from the lines that parse with that city as source, in line order (a subsequence of them). |
| Codec.LoadEdgesAppend | src/IOManager.cpp:74-83 | Loading two runs of lines is loading the first, then the second, into the result. |
| Codec.Decode | src/IOManager.cpp:54-87 | Loading merges into the given graph. The cities are the old ones, the lines before the separator and the sources of the parsed edge lines. Every parsed edge line whose target is an old city or a city line has its entry in the result, every existing entry survives, and well-formedness is preserved. |
| Codec.DecodeList | src/IOManager.cpp:54-87 | After loading, each city's list is `LoadList` of the edge section, starting from its old list (empty for a new city). The old cities and the city lines are known from the start. |
| Codec.EdgeLineBack | src/IOManager.cpp:46 | The line written for an entry parses back to the same source, target and distance. |
| Codec.CityLinesBack | src/IOManager.cpp:42-48 | Loading one city's lines appends its entries, in order, to that city's list. |
| Codec.EdgesBack | src/IOManager.cpp:74-83 | Loading the edge section into empty lists fills each listed city with exactly its list from the saved graph and leaves other cities as they were. |
| Codec.CitiesBack | src/IOManager.cpp:66-71 | Loading the city section into an empty graph gives every saved city with an empty list and hands the edge section to the edge loop. |
| Codec.RoundTrip | src/IOManager.cpp:25-87 | For every listing order that names each city exactly once, decoding the encoding of a storable graph into an empty graph gives back the same graph, including each city's entry order. A graph is storable when it is well formed, every city name is non-empty and free of white space, every weight fits in 32 bits, and no list repeats a (target, distance) entry. |
| Codec.SaveLoad | src/main.cpp:27-48 | For a storable graph (as under Codec.RoundTrip) and every listing order that names each city exactly once, saving, then loading the text into a reset graph, gives back the same graph. |

## Left out

- AStar.FindPath: with a general heuristic, it only states that the path weighs at most the reported cost. Optimality is proved only for the zero heuristic. The coordinate heuristic is neither admissible nor consistent in general, and the source makes no promise about it.
- The heuristic's arithmetic (`sqrt`, `pow`, a float-to-int cast) and the global coordinate table. The heuristic is the parameter `h`.
- Negative weights and `int` overflow in the searches: `Dijkstra.Dijkstra` and `AStar.FindPath` require non-negative weights, and distances are unbounded. `INT_MAX` is modelled as a city missing from the distance map. The store itself accepts any `int` weight, as the source does.
- The `fScore` map of A\*, which only feeds the queue priority. The model computes the priority directly as distance plus `h`.
- `standardizeCity`, `cityExists` and `getAdjList` are not defined in the modelled files. Dijkstra calls all three, and the traversals and A\* also call `getAdjList`. Names are taken as they are, existence is membership in the map, and the adjacency is the map itself.
- Console output (`cout`/`cerr`), `display`, `displayPath` and `printPath`. The searches return the path and cost the source would display, and `AddEdge` and `DeleteEdge` return their message as a `Status`. `AddCity` returns only the graph; whether it printed "added" or "already exists" is whether the name was a key.
- File opening, closing and the `data/` directory. `Save`/`Load` work on the text, and `Encode`/`Decode` work on its lines.
- The iteration order of `unordered_map` is not knowable. `Encode` takes it as a parameter, `order`, and the round trip holds for every order that lists each city once.
- The hash-map default insertions made by `operator[]` in the BFS helper class (`visited[...]`, `parent[...]`, `adjList[...]`). They change only local scratch maps or add empty lists, and they are modelled as lookups with defaults.
- BSF.ShortestPath: fewest hops is proved only when no city reachable from the start is named `""`. The source uses the empty name as its parent sentinel, so a reachable city with that name cuts the walk back short. Cities that cannot be reached play no part.
- Traversal.Dfs, Traversal.BfsOrder, Dijkstra.Dijkstra and AStar.FindPath require a well-formed graph, where every target is a city. The source's `adjList.at` would throw on a target that is not a city, and the model does not include that exception. It cannot happen: the program starts from an empty graph, and AddCity, AddEdge, DeleteCity, DeleteEdge and Decode all preserve well-formedness (their contracts say so).
- The interactive menus (`main.cpp`, `FindPath.cpp`, `Utilities.cpp`, `Traversal::traverse`), the Qt GUI and GraphViz export. These are presentation and I/O, with one exception. The console reads names with `cin >>`, so they never hold white space. The GUI only trims the ends of a name (src/gui/MainWindow.cpp:448-454 and 481-497), so it can pass the store a name with an inner space. The next line records what that does to saving.
- Codec.RoundTrip, Codec.SaveLoad: names with inner white space, which the GUI accepts, do not survive save/load, so both lemmas require every name to be free of white space. The city line keeps the whole name. Every edge line to or from such a city splits the name into two words. The line is then skipped (Codec.SpacedTargetDropped, Codec.SpacedSourceDropped), or, when the word after the split starts like an integer, read as a different edge.

## Behaviours of the code the model keeps

- `addEdge` reads `adjList[from]` before anything else. That inserts `from`, so the "from not found" branch never fires, and the model creates `from`.
- A duplicate edge needs the same target and the same distance. A same-target entry with a new weight is appended.
- `deleteEdge` removes entries in both directions, although edges are added one way.
- Loading merges into the current graph rather than replacing it. Cities are read up to the first empty line, and each later line that reads as word, word, integer becomes an `addEdge`. Anything after the integer is ignored, and any other line is skipped.

=== FILE: astar.dfy ===
/** `AStar::findPath`: the same relaxation as Dijkstra, with queue priority
    distance plus a heuristic estimate to the goal, no stale-entry check and
    no closed set; the search returns as soon as the goal is popped. The
    heuristic is a parameter. */
module AStar {
  import opened Graph
  import opened Search

  /** One pass of the search loop: pop the first entry; stop when it is the
      goal; otherwise relax the city's edges (even from a stale entry). With
      a zero heuristic the goal's distance is the least possible when it is
      popped. */
  method Round(g: Graph, start: string, goal: string, h: (string, string) -> nat, st: State, ghost bk: Book)
    returns (st': State, ghost bk': Book, arrived: bool)
    requires WellFormed(g) && NonNegative(g) && Inv(g, start, goal, h, st, bk) && |st.pq| > 0
    ensures Inv(g, start, goal, h, st', bk')
    ensures arrived ==> st' == st && goal in st.dist
    ensures arrived && (forall v :: h(v, goal) == 0) ==> LowerBound(g, start, goal, st.dist[goal])
    ensures !arrived ==> Ahead(st.dist, st'.dist) || (st'.dist == st.dist && |st'.pq| < |st.pq|)
  {
    var e, rest := PopMin(st.pq);
    var current := e.city;
    assert current in st.dist;
    if current == goal {
      if forall v :: h(v, goal) == 0 {
        PopIsOptimal(g, start, goal, h, st, bk, e);
      }
      return st, bk, true;
    }
    var working := st.(pq := rest);
    ghost var wb := bk.(settled := bk.settled - {current});
    forall v | v in working.dist && v !in wb.settled + {current}
      ensures Queued(working, h, goal, v)
    {
      assert Queued(st, h, goal, v);
    }
    st', bk' := Relax(g, start, goal, h, working, wb, current);
    arrived := false;
  }

  /** `AStar::findPath`, returning the path together with the total cost it
      displays (`gScore[goal]`). An unknown start or goal, or a goal no walk
      reaches, gives the empty path; otherwise the path is a walk from start
      to goal weighing at most the cost. With the zero heuristic the cost is
      the least weight of any walk, and it is the path's own weight. */
  method FindPath(g: Graph, start: string, goal: string, h: (string, string) -> nat)
    returns (path: seq<string>, cost: int)
    requires WellFormed(g) && NonNegative(g)
    ensures start !in g || goal !in g ==> path == []
    ensures start in g && goal in g ==> (path == [] <==> !Connected(g, start, goal))
    ensures path != [] ==> exists ws :: WalkBetween(g, path, ws, start, goal) && Sum(ws) <= cost
    ensures start in g && start == goal ==> path == [start] && cost == 0
    ensures path != [] && (forall v :: h(v, goal) == 0) ==>
              IsMinCost(g, start, goal, cost)
              && exists ws :: WalkBetween(g, path, ws, start, goal) && Sum(ws) == cost
  {
    if start !in g || goal !in g {
      return [], 0;
    }
    var st := State(map[start := 0], map[], multiset{Entry(h(start, goal), start)});
    ghost var bk := Book(map[], map[start := 0], 1, {});
    Initial(g, start, goal, h);
    var found := false;
    while |st.pq| > 0
      invariant Inv(g, start, goal, h, st, bk) && !found
      decreases |g.Keys - st.dist.Keys|, SumValues(st.dist), |st.pq|
    {
      var st', bk', arrived := Round(g, start, goal, h, st, bk);
      if arrived {
        found := true;
        break;
      }
      if Ahead(st.dist, st'.dist) {
        AheadMeasure(g.Keys, st.dist, st'.dist);
      }
      st, bk := st', bk';
    }
    if !found {
      Exhausted(g, start, goal, h, st, bk);
      return [], 0;
    }
    ghost var ws;
    path, ws := ReconstructPath(st.prev, start, goal, g, st, bk);
    cost := st.dist[goal];
  }
}

=== FILE: bfs.dfy ===
/** The queue-based breadth-first scan shared by `Traversal::bfs`,
    `BFS::traverse` and `BFS::shortestPath`: a city is marked visited when it
    is enqueued, and the enqueue order is the visit order.

    The scan's invariants are stated per element through small predicates
    (`Slot`, `Pos`, `StepUp`, `HasParent`, `Witness`, `Below`, `Kept`,
    `Late`) that the quantifiers use as triggers, so each fact is brought
    into a proof only where a proof names it. */
module Bfs {
  import opened Wrappers
  import opened Hops

  /** Levels never decrease along the enqueue order. */
  ghost predicate Monotone(order: seq<string>, lvl: map<string, nat>)
    requires forall i :: 0 <= i < |order| ==> order[i] in lvl
  {
    forall i, j :: 0 <= i <= j < |order| ==> lvl[order[i]] <= lvl[order[j]]
  }

  /** Position `i` of the order is recorded in the position map. */
  ghost predicate Slot(order: seq<string>, idx: map<string, nat>, i: int) {
    0 <= i < |order| && order[i] in idx && idx[order[i]] == i
  }

  /** City `v` sits in the order at its recorded position. */
  ghost predicate Pos(order: seq<string>, idx: map<string, nat>, v: string) {
    v in idx && idx[v] < |order| && order[idx[v]] == v
  }

  /** The level does not drop from position `i - 1` to position `i`. */
  ghost predicate StepUp(order: seq<string>, lvl: map<string, nat>, i: int) {
    0 < i < |order| && order[i - 1] in lvl && order[i] in lvl && lvl[order[i - 1]] <= lvl[order[i]]
  }

  /** The enqueue order starts at `start`; `idx` gives each enqueued city's
      position (so no city is enqueued twice); the visited set is exactly the
      enqueued cities; levels do not decrease from one position to the next. */
  ghost predicate Shape(start: string, visited: set<string>, order: seq<string>,
                        idx: map<string, nat>, lvl: map<string, nat>)
  {
    && |order| >= 1 && order[0] == start
    && visited == idx.Keys == lvl.Keys
    && (forall i {:trigger Slot(order, idx, i)} :: 0 <= i < |order| ==> Slot(order, idx, i))
    && (forall v {:trigger Pos(order, idx, v)} :: v in idx ==> Pos(order, idx, v))
    && start in lvl && lvl[start] == 0
    && (forall i {:trigger StepUp(order, lvl, i)} :: 0 < i < |order| ==> StepUp(order, lvl, i))
  }

  /** `v` was discovered from `parent[v]`, one level up. */
  ghost predicate HasParent(adj: Adj, parent: map<string, string>, lvl: map<string, nat>, v: string) {
    && v in parent && v in lvl && parent[v] in lvl
    && lvl[parent[v]] + 1 == lvl[v] && v in Succ(adj, parent[v])
  }

  /** Each enqueued city other than the start was discovered from a city one
      level up; the start's parent is the empty-name sentinel. */
  ghost predicate Tree(adj: Adj, start: string, parent: map<string, string>, lvl: map<string, nat>)
  {
    && parent.Keys == lvl.Keys && start in parent && parent[start] == ""
    && (forall v {:trigger HasParent(adj, parent, lvl, v)} :: v in parent && v != start ==>
          HasParent(adj, parent, lvl, v))
  }

  /** `wit[v]` is a walk from the start to `v` of exactly `v`'s level. */
  ghost predicate Witness(adj: Adj, start: string, wit: map<string, seq<string>>,
                          lvl: map<string, nat>, v: string)
  {
    v in lvl && v in wit && WalkFromTo(adj, wit[v], start, v) && |wit[v]| == lvl[v] + 1
  }

  ghost predicate Witnessed(adj: Adj, start: string, wit: map<string, seq<string>>, lvl: map<string, nat>)
  {
    forall v {:trigger Witness(adj, start, wit, lvl, v)} :: v in lvl ==> Witness(adj, start, wit, lvl, v)
  }

  ghost predicate Below(lvl: map<string, nat>, top: nat, v: string) {
    v in lvl && lvl[v] <= top
  }

  /** No enqueued city is more than `top` levels deep. */
  ghost predicate Spread(lvl: map<string, nat>, top: nat) {
    forall v {:trigger Below(lvl, top, v)} :: v in lvl ==> Below(lvl, top, v)
  }

  /** All successors of `v` are enqueued, at most one level below `v`. */
  ghost predicate Expanded(adj: Adj, lvl: map<string, nat>, v: string)
    requires v in lvl
  {
    forall x :: x in Succ(adj, v) ==> x in lvl && lvl[x] <= lvl[v] + 1
  }

  /** The cities at positions below `head` have been expanded. */
  ghost predicate Closed(adj: Adj, idx: map<string, nat>, lvl: map<string, nat>, head: nat)
    requires idx.Keys == lvl.Keys
  {
    forall v {:trigger Expanded(adj, lvl, v)} :: v in idx && idx[v] < head ==> Expanded(adj, lvl, v)
  }

  /** City `v` keeps its level and position from the earlier maps. */
  ghost predicate Kept(idx: map<string, nat>, lvl: map<string, nat>,
                       idx': map<string, nat>, lvl': map<string, nat>, v: string)
  {
    v in lvl && v in lvl' && lvl'[v] == lvl[v] && v in idx && v in idx' && idx'[v] == idx[v]
  }

  /** City `v`, new in `idx'`, was placed at position `n` or later. */
  ghost predicate Late(idx: map<string, nat>, idx': map<string, nat>, n: nat, v: string) {
    v in idx' && v !in idx && idx'[v] >= n
  }

  /** The later maps keep every earlier city and place new ones from `n` on. */
  ghost predicate Extends(idx: map<string, nat>, lvl: map<string, nat>,
                          idx': map<string, nat>, lvl': map<string, nat>, n: nat)
  {
    && (forall v {:trigger Kept(idx, lvl, idx', lvl', v)} :: v in lvl ==> Kept(idx, lvl, idx', lvl', v))
    && (forall v {:trigger Late(idx, idx', n, v)} :: v in idx' && v !in idx ==> Late(idx, idx', n, v))
  }

  /** Step-wise monotone levels are monotone. */
  lemma {:induction false} LevelsMonotone(start: string, visited: set<string>, order: seq<string>,
                                          idx: map<string, nat>, lvl: map<string, nat>, i: nat, j: nat)
    requires Shape(start, visited, order, idx, lvl)
    requires i <= j < |order|
    ensures order[i] in lvl && order[j] in lvl && lvl[order[i]] <= lvl[order[j]]
    decreases j - i
  {
    assert Slot(order, idx, i) && Slot(order, idx, j);
    if i < j {
      assert StepUp(order, lvl, i + 1);
      LevelsMonotone(start, visited, order, idx, lvl, i + 1, j);
    }
  }

  /** BFS completeness: a walk of at most `k` hops ends at an enqueued city
      whose level is at most the walk's length, when every city with level
      below `k` has been expanded. */
  lemma {:induction false} Complete(adj: Adj, start: string, idx: map<string, nat>,
                                    lvl: map<string, nat>, head: nat, k: nat, p: seq<string>)
    requires idx.Keys == lvl.Keys && start in lvl && lvl[start] == 0
    requires Closed(adj, idx, lvl, head)
    requires forall v :: v in lvl && lvl[v] < k ==> idx[v] < head
    requires IsHopWalk(adj, p) && p[0] == start && |p| - 1 <= k
    ensures p[|p| - 1] in lvl && lvl[p[|p| - 1]] <= |p| - 1
    decreases |p|
  {
    if |p| > 1 {
      var p' := p[..|p| - 1];
      assert IsHopWalk(adj, p');
      Complete(adj, start, idx, lvl, head, k, p');
      var y := p'[|p'| - 1];
      assert Expanded(adj, lvl, y);
      assert p[|p| - 1] in Succ(adj, y) by {
        assert p[|p| - 2] == y;
      }
    }
  }

  /** Marking a fresh city at the end of the order keeps its shape. */
  lemma MarkKeepsShape(start: string, visited: set<string>, order: seq<string>,
                       idx: map<string, nat>, lvl: map<string, nat>, nb: string, l: nat)
    requires Shape(start, visited, order, idx, lvl)
    requires nb !in visited && Spread(lvl, l)
    ensures Shape(start, visited + {nb}, order + [nb], idx[nb := |order|], lvl[nb := l])
  {
    var order', idx', lvl' := order + [nb], idx[nb := |order|], lvl[nb := l];
    forall i | 0 <= i < |order'|
      ensures Slot(order', idx', i)
    {
      if i < |order| {
        assert Slot(order, idx, i);
      }
    }
    forall v | v in idx'
      ensures Pos(order', idx', v)
    {
      if v != nb {
        assert Pos(order, idx, v);
      }
    }
    forall i | 0 < i < |order'|
      ensures StepUp(order', lvl', i)
    {
      if i < |order| {
        assert StepUp(order, lvl, i);
      } else {
        assert Slot(order, idx, |order| - 1);
        assert Below(lvl, l, order[|order| - 1]);
      }
    }
  }

  /** Marking a fresh successor keeps the parent tree. */
  lemma MarkKeepsTree(adj: Adj, start: string, parent: map<string, string>,
                      lvl: map<string, nat>, current: string, nb: string)
    requires Tree(adj, start, parent, lvl)
    requires current in lvl && nb !in lvl && nb in Succ(adj, current)
    ensures Tree(adj, start, parent[nb := current], lvl[nb := lvl[current] + 1])
  {
    var parent', lvl' := parent[nb := current], lvl[nb := lvl[current] + 1];
    forall v | v in parent' && v != start
      ensures HasParent(adj, parent', lvl', v)
    {
      if v != nb {
        assert HasParent(adj, parent, lvl, v);
      }
    }
  }

  /** Marking a fresh successor keeps a witness walk for every city. */
  lemma MarkKeepsWitnesses(adj: Adj, start: string, wit: map<string, seq<string>>,
                           lvl: map<string, nat>, current: string, nb: string)
    requires Witnessed(adj, start, wit, lvl) && current in wit
    requires current in lvl && nb !in lvl && nb in Succ(adj, current)
    ensures Witnessed(adj, start, wit[nb := wit[current] + [nb]], lvl[nb := lvl[current] + 1])
  {
    var wit', lvl' := wit[nb := wit[current] + [nb]], lvl[nb := lvl[current] + 1];
    assert Witness(adj, start, wit, lvl, current);
    forall v | v in lvl'
      ensures Witness(adj, start, wit', lvl', v)
    {
      if v == nb {
        Extend(adj, wit[current], start, current, nb);
      } else {
        assert Witness(adj, start, wit, lvl, v);
      }
    }
  }

  /** Marking a fresh city at level `top` keeps every level within `top`. */
  lemma MarkKeepsSpread(lvl: map<string, nat>, top: nat, nb: string)
    requires Spread(lvl, top)
    ensures Spread(lvl[nb := top], top)
  {
    var lvl' := lvl[nb := top];
    forall v | v in lvl'
      ensures Below(lvl', top, v)
    {
      if v != nb {
        assert Below(lvl, top, v);
      }
    }
  }

  /** A bound on all levels is also a bound when raised. */
  lemma SpreadRaise(lvl: map<string, nat>, top: nat, top': nat)
    requires Spread(lvl, top) && top <= top'
    ensures Spread(lvl, top')
  {
    forall v | v in lvl
      ensures Below(lvl, top', v)
    {
      assert Below(lvl, top, v);
    }
  }

  /** The maps extend themselves. */
  lemma ExtendsRefl(idx: map<string, nat>, lvl: map<string, nat>, n: nat)
    requires idx.Keys == lvl.Keys
    ensures Extends(idx, lvl, idx, lvl, n)
  {
    forall v | v in lvl
      ensures Kept(idx, lvl, idx, lvl, v)
    {
    }
  }

  /** Adding one fresh city at position `m >= n` keeps the extension. */
  lemma ExtendsMark(idx: map<string, nat>, lvl: map<string, nat>,
                    idx1: map<string, nat>, lvl1: map<string, nat>, n: nat,
                    nb: string, m: nat, top: nat)
    requires Extends(idx, lvl, idx1, lvl1, n) && idx1.Keys == lvl1.Keys
    requires nb !in lvl1 && n <= m
    ensures Extends(idx, lvl, idx1[nb := m], lvl1[nb := top], n)
  {
    forall v | v in lvl
      ensures Kept(idx, lvl, idx1[nb := m], lvl1[nb := top], v)
    {
      assert Kept(idx, lvl, idx1, lvl1, v);
    }
    forall v | v in idx1[nb := m] && v !in idx
      ensures Late(idx, idx1[nb := m], n, v)
    {
      if v != nb {
        assert Late(idx, idx1, n, v);
      }
    }
  }

  /** Expanding the dequeued city closes one more position. */
  lemma CloseStep(adj: Adj, start: string, visited: set<string>, order: seq<string>,
                  idx: map<string, nat>, lvl: map<string, nat>,
                  idx': map<string, nat>, lvl': map<string, nat>, head: nat, current: string)
    requires Shape(start, visited, order, idx, lvl) && idx'.Keys == lvl'.Keys
    requires Closed(adj, idx, lvl, head)
    requires head < |order| && order[head] == current
    requires Extends(idx, lvl, idx', lvl', |order|)
    requires current in lvl' && Expanded(adj, lvl', current)
    ensures Closed(adj, idx', lvl', head + 1)
  {
    forall v | v in idx' && idx'[v] < head + 1
      ensures Expanded(adj, lvl', v)
    {
      assert v in idx || Late(idx, idx', |order|, v);
      if v != current {
        assert Kept(idx, lvl, idx', lvl', v);
        assert Pos(order, idx, v);
        assert idx[v] < head;
        assert Expanded(adj, lvl, v);
        forall x | x in Succ(adj, v)
          ensures x in lvl' && lvl'[x] <= lvl'[v] + 1
        {
          assert Kept(idx, lvl, idx', lvl', x);
        }
      }
    }
  }

  /** Appending to a concatenation appends to its second part. */
  lemma Snoc(a: seq<string>, b: seq<string>, x: string)
    ensures (a + b) + [x] == a + (b + [x])
  {
  }

  /** The slice from `h` starts with `s[h]`, followed by the slice from `h + 1`. */
  lemma DropFirst(s: seq<string>, h: nat)
    requires h < |s|
    ensures s[h..][0] == s[h] && s[h..][1..] == s[h + 1..]
  {
  }

  /** Marking one fresh successor `nb` of `current`: it is visited, gets
      `current` as parent, is appended to the order and to the queue. */
  method Mark(adj: Adj, start: string, current: string, nb: string,
              visited: set<string>, order: seq<string>, parent: map<string, string>,
              q: seq<string>, ghost idx: map<string, nat>, ghost lvl: map<string, nat>,
              ghost wit: map<string, seq<string>>, ghost top: nat)
    returns (visited': set<string>, order': seq<string>, parent': map<string, string>,
             q': seq<string>, ghost idx': map<string, nat>, ghost lvl': map<string, nat>,
             ghost wit': map<string, seq<string>>)
    requires Shape(start, visited, order, idx, lvl) && Tree(adj, start, parent, lvl)
    requires Witnessed(adj, start, wit, lvl)
    requires current in lvl && lvl[current] + 1 == top && Spread(lvl, top)
    requires nb in Succ(adj, current) && nb !in visited
    ensures Shape(start, visited', order', idx', lvl') && Tree(adj, start, parent', lvl')
    ensures Witnessed(adj, start, wit', lvl') && Spread(lvl', top)
    ensures visited' == visited + {nb} && order' == order + [nb] && q' == q + [nb]
    ensures lvl' == lvl[nb := top] && idx' == idx[nb := |order|]
  {
    assert Witness(adj, start, wit, lvl, current);
    MarkKeepsShape(start, visited, order, idx, lvl, nb, top);
    MarkKeepsTree(adj, start, parent, lvl, current, nb);
    MarkKeepsWitnesses(adj, start, wit, lvl, current, nb);
    MarkKeepsSpread(lvl, top, nb);
    visited' := visited + {nb};
    parent' := parent[nb := current];
    wit' := wit[nb := wit[current] + [nb]];
    idx' := idx[nb := |order|];
    lvl' := lvl[nb := top];
    order' := order + [nb];
    q' := q + [nb];
  }

  /** Processing the dequeued city `order[head]`: each successor not yet
      visited is marked, given `current` as parent, and enqueued, in list
      order. */
  method Discover(adj: Adj, start: string, current: string, ghost head: nat, ghost top: nat,
                  visited: set<string>, order: seq<string>, parent: map<string, string>,
                  q: seq<string>, ghost idx: map<string, nat>, ghost lvl: map<string, nat>,
                  ghost wit: map<string, seq<string>>)
    returns (visited': set<string>, order': seq<string>, parent': map<string, string>,
             q': seq<string>, ghost idx': map<string, nat>, ghost lvl': map<string, nat>,
             ghost wit': map<string, seq<string>>)
    requires Shape(start, visited, order, idx, lvl) && Tree(adj, start, parent, lvl)
    requires Witnessed(adj, start, wit, lvl)
    requires head < |order| && order[head] == current && q == order[head + 1..]
    requires current in lvl && lvl[current] + 1 == top && Spread(lvl, top)
    ensures Shape(start, visited', order', idx', lvl') && Tree(adj, start, parent', lvl')
    ensures Witnessed(adj, start, wit', lvl')
    ensures |order| <= |order'| && order'[head] == current && q' == order'[head + 1..]
    ensures Spread(lvl', top)
    ensures Extends(idx, lvl, idx', lvl', |order|)
    ensures current in lvl' && lvl'[current] == lvl[current] && Expanded(adj, lvl', current)
    ensures visited <= visited' && (visited' == visited ==> q' == q)
    ensures forall v :: v in visited' && v !in visited ==> v in Succ(adj, current)
  {
    visited', order', parent', q', idx', lvl', wit' := visited, order, parent, q, idx, lvl, wit;
    var nbrs := Succ(adj, current);
    ghost var added: seq<string> := [];
    ExtendsRefl(idx, lvl, |order|);
    var k := 0;
    while k < |nbrs|
      invariant k <= |nbrs|
      invariant Shape(start, visited', order', idx', lvl') && Tree(adj, start, parent', lvl')
      invariant Witnessed(adj, start, wit', lvl') && Spread(lvl', top)
      invariant order' == order + added && q' == q + added
      invariant visited <= visited' && (visited' == visited ==> added == [])
      invariant forall v :: v in visited' && v !in visited ==> v in nbrs
      invariant Extends(idx, lvl, idx', lvl', |order|)
      invariant forall j :: 0 <= j < k ==> Below(lvl', top, nbrs[j])
    {
      var nb := nbrs[k];
      if nb !in visited' {
        assert Kept(idx, lvl, idx', lvl', current);
        ExtendsMark(idx, lvl, idx', lvl', |order|, nb, |order'|, top);
        Snoc(order, added, nb);
        Snoc(q, added, nb);
        visited', order', parent', q', idx', lvl', wit' :=
          Mark(adj, start, current, nb, visited', order', parent', q', idx', lvl', wit', top);
        added := added + [nb];
      }
      assert Below(lvl', top, nb);
      k := k + 1;
    }
    assert q' == order'[head + 1..];
    assert order'[head] == order[head];
    assert Kept(idx, lvl, idx', lvl', current);
    forall x | x in nbrs
      ensures x in lvl' && lvl'[x] <= lvl'[current] + 1
    {
      var j :| 0 <= j < |nbrs| && nbrs[j] == x;
      assert Below(lvl', top, nbrs[j]);
    }
  }

  /** Once the scan stops, levels are hop distances; when the queue ran dry,
      the order holds every reachable city. */
  lemma Finish(adj: Adj, start: string, visited: set<string>, order: seq<string>,
               idx: map<string, nat>, lvl: map<string, nat>, wit: map<string, seq<string>>,
               head: nat, top: nat)
    requires Shape(start, visited, order, idx, lvl) && Witnessed(adj, start, wit, lvl)
    requires head <= |order| && Closed(adj, idx, lvl, head)
    requires head < |order| ==> order[head] in lvl && lvl[order[head]] + 1 == top && Spread(lvl, top)
    ensures forall v :: v in lvl ==> IsHopDist(adj, start, v, lvl[v])
    ensures head == |order| ==> forall v :: Reaches(adj, start, v) ==> v in lvl
  {
    ghost var k: nat := if head < |order| then lvl[order[head]] else 0;
    forall v | v in lvl && (head == |order| || lvl[v] < k)
      ensures idx[v] < head
    {
      assert Pos(order, idx, v);
      if head < |order| && idx[v] >= head {
        LevelsMonotone(start, visited, order, idx, lvl, head, idx[v]);
      }
    }
    forall v | v in lvl
      ensures IsHopDist(adj, start, v, lvl[v])
    {
      assert Witness(adj, start, wit, lvl, v);
      forall p | WalkFromTo(adj, p, start, v)
        ensures lvl[v] + 1 <= |p|
      {
        if |p| < lvl[v] + 1 {
          if head < |order| {
            assert Below(lvl, top, v);
            Complete(adj, start, idx, lvl, head, k, p);
          } else {
            Complete(adj, start, idx, lvl, head, |p| - 1, p);
          }
        }
      }
    }
    if head == |order| {
      forall v | Reaches(adj, start, v)
        ensures v in lvl
      {
        var p :| WalkFromTo(adj, p, start, v);
        Complete(adj, start, idx, lvl, head, |p| - 1, p);
      }
    }
  }

  /** The position map makes the order repetition-free and monotone. */
  lemma ShapeFacts(start: string, visited: set<string>, order: seq<string>,
                   idx: map<string, nat>, lvl: map<string, nat>)
    requires Shape(start, visited, order, idx, lvl)
    ensures forall v :: v in lvl <==> v in order
    ensures Distinct(order)
    ensures Monotone(order, lvl)
  {
    forall v | v in order
      ensures v in lvl
    {
      var i :| 0 <= i < |order| && order[i] == v;
      assert Slot(order, idx, i);
    }
    forall v | v in lvl
      ensures v in order
    {
      assert Pos(order, idx, v);
    }
    forall i, j | 0 <= i < j < |order|
      ensures order[i] != order[j]
    {
      assert Slot(order, idx, i) && Slot(order, idx, j);
    }
    forall i, j | 0 <= i <= j < |order|
      ensures lvl[order[i]] <= lvl[order[j]]
    {
      LevelsMonotone(start, visited, order, idx, lvl, i, j);
    }
  }

  /** The scan's loop invariant: `q` is the unprocessed tail of the order
      from `head`, everything before `head` is expanded, and `top` bounds all
      levels, one above the level at the head of the queue. */
  ghost predicate Scanning(adj: Adj, start: string, visited: set<string>, order: seq<string>,
                           parent: map<string, string>, q: seq<string>, idx: map<string, nat>,
                           lvl: map<string, nat>, wit: map<string, seq<string>>, head: nat, top: nat)
  {
    && Shape(start, visited, order, idx, lvl) && Tree(adj, start, parent, lvl)
    && Witnessed(adj, start, wit, lvl) && visited <= Names(adj, start)
    && head <= |order| && q == order[head..]
    && (head < |order| ==> order[head] in lvl && lvl[order[head]] + 1 == top && Spread(lvl, top))
    && Closed(adj, idx, lvl, head)
  }

  /** One round of the scan loop after dequeuing `current`, which was not
      the stop city: its successors are discovered and `head` moves on. */
  method Round(adj: Adj, start: string, current: string,
               visited: set<string>, order: seq<string>, parent: map<string, string>,
               q: seq<string>, ghost idx: map<string, nat>, ghost lvl: map<string, nat>,
               ghost wit: map<string, seq<string>>, ghost head: nat, ghost top: nat)
    returns (visited': set<string>, order': seq<string>, parent': map<string, string>,
             q': seq<string>, ghost idx': map<string, nat>, ghost lvl': map<string, nat>,
             ghost wit': map<string, seq<string>>, ghost head': nat, ghost top': nat)
    requires Scanning(adj, start, visited, order, parent, [current] + q, idx, lvl, wit, head, top)
    ensures Scanning(adj, start, visited', order', parent', q', idx', lvl', wit', head', top')
    ensures |Names(adj, start) - visited'| < |Names(adj, start) - visited|
            || (visited' == visited && |q'| < |q| + 1)
  {
    DropFirst(order, head);
    assert ([current] + q)[1..] == q;
    visited', order', parent', q', idx', lvl', wit' :=
      Discover(adj, start, current, head, top, visited, order, parent, q, idx, lvl, wit);
    CloseStep(adj, start, visited, order, idx, lvl, idx', lvl', head, current);
    Progress(adj, start, current, visited, visited', q, q');
    head' := head + 1;
    top' := Advance(start, visited', order', idx', lvl', head', top);
  }

  /** A round adds only successors of the dequeued city, so the visited set
      stays within the adjacency's names, and either it grows or the queue
      shrinks. */
  lemma Progress(adj: Adj, start: string, current: string, visited: set<string>,
                 visited': set<string>, q: seq<string>, q': seq<string>)
    requires visited <= Names(adj, start) && visited <= visited'
    requires forall v :: v in visited' && v !in visited ==> v in Succ(adj, current)
    requires visited' == visited ==> q' == q
    ensures visited' <= Names(adj, start)
    ensures |Names(adj, start) - visited'| < |Names(adj, start) - visited|
            || (visited' == visited && |q'| < |q| + 1)
  {
    forall v | v in visited' && v !in visited
      ensures v in Names(adj, start)
    {
      SuccInNames(adj, start, current, v);
    }
    if visited' != visited {
      Shrinks(Names(adj, start), visited, visited');
    }
  }

  /** Moving the head one step keeps a level cap one above the new head. */
  lemma Advance(start: string, visited: set<string>, order: seq<string>, idx: map<string, nat>,
                lvl: map<string, nat>, head: nat, top: nat) returns (top': nat)
    requires Shape(start, visited, order, idx, lvl) && 0 < head <= |order|
    requires order[head - 1] in lvl && lvl[order[head - 1]] + 1 == top && Spread(lvl, top)
    ensures head < |order| ==> order[head] in lvl && lvl[order[head]] + 1 == top' && Spread(lvl, top')
  {
    top' := top;
    if head < |order| {
      assert StepUp(order, lvl, head);
      top' := lvl[order[head]] + 1;
      SpreadRaise(lvl, top, top');
    }
  }

  /** The state before the first round satisfies the loop invariant. */
  lemma StartScanning(adj: Adj, start: string)
    ensures Scanning(adj, start, {start}, [start], map[start := ""], [start], map[start := 0],
                     map[start := 0], map[start := [start]], 0, 1)
  {
    var order, idx, lvl, wit := [start], map[start := 0], map[start := 0], map[start := [start]];
    assert WalkFromTo(adj, [start], start, start);
    assert Slot(order, idx, 0);
    assert Witness(adj, start, wit, lvl, start);
    assert Below(lvl, 1, start);
    assert order[0..] == order;
  }

  /** The scan loop. It ends with the queue empty (`head == |order|`) or,
      when `stop` names a city, right after dequeuing that city. */
  method Scan(adj: Adj, start: string, stop: Option<string>)
    returns (order: seq<string>, parent: map<string, string>, visited: set<string>,
             ghost idx: map<string, nat>, ghost lvl: map<string, nat>,
             ghost wit: map<string, seq<string>>, ghost head: nat, ghost top: nat)
    ensures Shape(start, visited, order, idx, lvl) && Tree(adj, start, parent, lvl)
    ensures Witnessed(adj, start, wit, lvl)
    ensures head <= |order| && Closed(adj, idx, lvl, head)
    ensures head < |order| ==> order[head] in lvl && lvl[order[head]] + 1 == top && Spread(lvl, top)
    ensures head == |order| || (stop.Some? && order[head] == stop.value)
  {
    visited := {start};
    order := [start];
    parent := map[start := ""];
    lvl := map[start := 0];
    idx := map[start := 0];
    wit := map[start := [start]];
    var q := [start];
    head := 0;
    top := 1;
    StartScanning(adj, start);
    while |q| > 0
      invariant Scanning(adj, start, visited, order, parent, q, idx, lvl, wit, head, top)
      decreases |Names(adj, start) - visited|, |q|
    {
      var current := q[0];
      if stop == Some(current) {
        ScanFacts(adj, start, visited, order, parent, q, idx, lvl, wit, head, top);
        return;
      }
      assert q == [current] + q[1..];
      visited, order, parent, q, idx, lvl, wit, head, top :=
        Round(adj, start, current, visited, order, parent, q[1..], idx, lvl, wit, head, top);
    }
    ScanFacts(adj, start, visited, order, parent, q, idx, lvl, wit, head, top);
  }

  /** What the scan's invariant gives at an exit: the queue is empty exactly
      when every enqueued city has been processed, and otherwise its front is
      the city at `head`. */
  lemma ScanFacts(adj: Adj, start: string, visited: set<string>, order: seq<string>,
                  parent: map<string, string>, q: seq<string>, idx: map<string, nat>,
                  lvl: map<string, nat>, wit: map<string, seq<string>>, head: nat, top: nat)
    requires Scanning(adj, start, visited, order, parent, q, idx, lvl, wit, head, top)
    ensures Shape(start, visited, order, idx, lvl) && Tree(adj, start, parent, lvl)
    ensures Witnessed(adj, start, wit, lvl)
    ensures head <= |order| && Closed(adj, idx, lvl, head)
    ensures head < |order| ==> order[head] in lvl && lvl[order[head]] + 1 == top && Spread(lvl, top)
    ensures |q| == 0 ==> head == |order|
    ensures |q| > 0 ==> head < |order| && order[head] == q[0]
  {
    if head < |order| {
      DropFirst(order, head);
    }
  }

  /** Breadth-first scan from `start`. With `stop == Some(t)` the scan ends
      when `t` is dequeued (the shortest-path helper's early exit).
      `order` is the enqueue order, `parent` the discovering city of each
      enqueued city (`""` for the start), `lvl` the ghost level of each. */
  method Explore(adj: Adj, start: string, stop: Option<string>)
    returns (order: seq<string>, parent: map<string, string>, ghost lvl: map<string, nat>)
    ensures |order| >= 1 && order[0] == start
    ensures forall v :: v in lvl <==> v in order
    ensures Distinct(order)
    ensures lvl[start] == 0 && Monotone(order, lvl)
    ensures forall v :: v in lvl ==> IsHopDist(adj, start, v, lvl[v])
    ensures stop == None ==> forall v :: Reaches(adj, start, v) <==> v in order
    ensures stop.Some? ==> (Reaches(adj, start, stop.value) <==> stop.value in order)
    ensures Tree(adj, start, parent, lvl)
  {
    var visited; ghost var idx, wit, head, top;
    order, parent, visited, idx, lvl, wit, head, top := Scan(adj, start, stop);
    Finish(adj, start, visited, order, idx, lvl, wit, head, top);
    ShapeFacts(start, visited, order, idx, lvl);
    if head < |order| {
      assert order[head] in order;
    }
  }
}

=== FILE: bsf.dfy ===
/** The stand-alone BFS helper class: it copies an unweighted adjacency out
    of the weighted store, prints a breadth-first order, and finds a path with
    the fewest hops by walking recorded parents back from the target. */
module BSF {
  import opened Wrappers
  import opened Graph
  import opened Hops
  import Bfs

  /** `BFS::loadFromWeightedGraph`: each city with at least one neighbour
      gets its targets, in list order; a city without neighbours gets no
      entry at all. */
  function LoadFromWeightedGraph(g: Graph): (r: Adj)
    ensures forall v :: v in r <==> v in g && |g[v]| > 0
  {
    map v | v in g && |g[v]| > 0 :: Targets(g[v])
  }

  /** The loaded adjacency has the same successors as the graph itself, so
      it has the same walks, the same reachable cities and the same hop
      distances. */
  lemma LoadedSameSucc(g: Graph)
    ensures forall v :: Succ(LoadFromWeightedGraph(g), v) == Succ(View(g), v)
  {
    forall v
      ensures Succ(LoadFromWeightedGraph(g), v) == Succ(View(g), v)
    {
      if v in g && |g[v]| == 0 {
        assert Targets(g[v]) == [];
      }
    }
  }

  /** Walks agree between two adjacencies with the same successors. */
  lemma SameSuccSameWalks(a: Adj, b: Adj)
    requires forall v :: Succ(a, v) == Succ(b, v)
    ensures forall p :: IsHopWalk(a, p) <==> IsHopWalk(b, p)
  {
  }

  /** Reachability over the loaded adjacency is reachability over the graph. */
  lemma LoadedReaches(g: Graph, s: string, v: string)
    ensures Reaches(LoadFromWeightedGraph(g), s, v) <==> Reaches(View(g), s, v)
  {
    LoadedSameSucc(g);
    SameSuccSameWalks(LoadFromWeightedGraph(g), View(g));
    if Reaches(View(g), s, v) {
      var p :| WalkFromTo(View(g), p, s, v);
      assert WalkFromTo(LoadFromWeightedGraph(g), p, s, v);
    }
    if Reaches(LoadFromWeightedGraph(g), s, v) {
      var p :| WalkFromTo(LoadFromWeightedGraph(g), p, s, v);
      assert WalkFromTo(View(g), p, s, v);
    }
  }

  /** `BFS::traverse`: prints the start, then every city reachable from it
      exactly once, in nondecreasing number of hops. There is no check that
      the start is a known city; an unknown start prints just itself. */
  method Traverse(adj: Adj, start: string) returns (order: seq<string>)
    ensures |order| >= 1 && order[0] == start
    ensures Distinct(order)
    ensures forall v :: v in order <==> Reaches(adj, start, v)
    ensures forall i, j, di: nat, dj: nat ::
              (0 <= i <= j < |order| && IsHopDist(adj, start, order[i], di)
               && IsHopDist(adj, start, order[j], dj)) ==> di <= dj
  {
    var parent;
    ghost var lvl;
    order, parent, lvl := Bfs.Explore(adj, start, None);
    forall i, j, di: nat, dj: nat |
      0 <= i <= j < |order| && IsHopDist(adj, start, order[i], di)
      && IsHopDist(adj, start, order[j], dj)
      ensures di <= dj
    {
      assert order[i] in lvl && order[j] in lvl;
      HopDistUnique(adj, start, order[i], di, lvl[order[i]]);
      HopDistUnique(adj, start, order[j], dj, lvl[order[j]]);
    }
  }

  /** The empty string, the value the parent map uses to mark the start, is
      not a city reachable from the start (the start included). */
  ghost predicate NoBlank(adj: Adj, start: string) {
    !Reaches(adj, start, "")
  }

  /** Every discovered city is reachable, so without a reachable blank name
      no discovered city is blank. */
  lemma NoBlankLevels(adj: Adj, start: string, lvl: map<string, nat>)
    requires NoBlank(adj, start)
    requires forall v :: v in lvl ==> IsHopDist(adj, start, v, lvl[v])
    ensures "" !in lvl
  {
    forall v | v in lvl
      ensures Reaches(adj, start, v)
    {
      assert IsHopDist(adj, start, v, lvl[v]);
    }
  }

  /** The parent walk of `shortestPath`: starting from `end`, prepend the
      current city and move to its parent, until the blank name is reached.
      The result is a walk into `end`; when no discovered city is blank it
      starts at `start` and has exactly `end`'s level in hops. */
  method WalkBack(adj: Adj, start: string, end: string, parent: map<string, string>,
                  ghost lvl: map<string, nat>)
    returns (path: seq<string>)
    requires Bfs.Tree(adj, start, parent, lvl) && lvl[start] == 0 && end in lvl
    ensures path != [] ==> IsHopWalk(adj, path) && path[|path| - 1] == end
    ensures "" !in lvl ==> path != [] && path[0] == start && |path| == lvl[end] + 1
  {
    path := [];
    var at := end;
    while at != ""
      invariant at != "" ==> at in lvl && at in parent
      invariant path == [] ==> at == end
      invariant path != [] ==> IsHopWalk(adj, path) && path[|path| - 1] == end
      invariant at != "" && path != [] ==> path[0] in Succ(adj, at)
      invariant at != "" ==> |path| + lvl[at] == lvl[end]
      invariant at == "" && path != [] && "" !in lvl ==> path[0] == start && |path| == lvl[end] + 1
      decreases if at == "" then 0 else lvl[at] + 1
    {
      var path' := [at] + path;
      if path != [] {
        assert IsHopWalk(adj, path') by {
          forall i | 0 <= i < |path'| - 1
            ensures path'[i + 1] in Succ(adj, path'[i])
          {
            if i > 0 {
              assert path'[i] == path[i - 1] && path'[i + 1] == path[i];
            }
          }
        }
      }
      if at != start {
        assert Bfs.HasParent(adj, parent, lvl, at);
      }
      path := path';
      at := parent[at];
    }
  }

  /** `BFS::shortestPath`. A breadth-first scan from `start` that stops when
      `end` is dequeued; if `end` was never reached the path is empty,
      otherwise parents are followed back from `end`. The result is always
      a walk into `end`; when the empty string is not a city reachable from
      `start`, it is non-empty exactly when `end` is reachable, and then
      starts at `start` with the fewest hops possible. */
  method ShortestPath(adj: Adj, start: string, end: string) returns (path: seq<string>)
    ensures !Reaches(adj, start, end) ==> path == []
    ensures path != [] ==> IsHopWalk(adj, path) && path[|path| - 1] == end
    ensures NoBlank(adj, start) && Reaches(adj, start, end) ==>
              path != [] && path[0] == start && IsHopDist(adj, start, end, |path| - 1)
  {
    var order, parent;
    ghost var lvl;
    order, parent, lvl := Bfs.Explore(adj, start, Some(end));
    if end !in order {
      return [];
    }
    path := WalkBack(adj, start, end, parent, lvl);
    if NoBlank(adj, start) {
      NoBlankLevels(adj, start, lvl);
    }
  }
}

=== FILE: codec.dfy ===
/** The save/load text format: one line per city, an empty separator line,
    then one `from to dist` line per adjacency entry. Saving is a pure
    encoder to lines (and text); loading decodes lines through `addCity` and
    `addEdge` into a graph it is given, merging rather than replacing. */
module Codec {
  import opened Wrappers
  import opened Graph
  import opened Decimal
  import Hops

  // ---------------------------------------------------------------------
  // Encoding (saveGraph)

  /** The line written for one adjacency entry of `from`. */
  function EdgeLine(from: string, e: Edge): string {
    from + (" " + (e.to + (" " + IntToString(e.dist))))
  }

  /** The lines of one city's list, in list order. */
  function EdgeLines(from: string, es: seq<Edge>): (r: seq<string>)
    ensures |r| == |es|
  {
    if |es| == 0 then [] else [EdgeLine(from, es[0])] + EdgeLines(from, es[1..])
  }

  lemma {:induction false} EdgeLinesAt(from: string, es: seq<Edge>, j: nat)
    requires j < |es|
    ensures EdgeLines(from, es)[j] == EdgeLine(from, es[j])
  {
    if j > 0 {
      EdgeLinesAt(from, es[1..], j - 1);
    }
  }

  /** The edge section: each city's entries, city by city in `order`. */
  function AllEdgeLines(g: Graph, order: seq<string>): seq<string>
    requires forall i :: 0 <= i < |order| ==> order[i] in g
  {
    if |order| == 0 then [] else EdgeLines(order[0], g[order[0]]) + AllEdgeLines(g, order[1..])
  }

  /** How many adjacency entries the cities of `order` hold. */
  function EntryCount(g: Graph, order: seq<string>): nat
    requires forall i :: 0 <= i < |order| ==> order[i] in g
  {
    if |order| == 0 then 0 else |g[order[0]]| + EntryCount(g, order[1..])
  }

  /** `saveGraph` as lines. `order` is the iteration order of the source's
      hash map, which the source leaves unspecified; both loops of the
      source walk the same order. */
  function Encode(g: Graph, order: seq<string>): (r: seq<string>)
    requires forall i :: 0 <= i < |order| ==> order[i] in g
  {
    order + [""] + AllEdgeLines(g, order)
  }

  /** `saveGraph` as text: every line is ended by a newline. */
  function Save(g: Graph, order: seq<string>): string
    requires forall i :: 0 <= i < |order| ==> order[i] in g
  {
    Text(Encode(g, order))
  }

  lemma {:induction false} AllEdgeLinesCount(g: Graph, order: seq<string>)
    requires forall i :: 0 <= i < |order| ==> order[i] in g
    ensures |AllEdgeLines(g, order)| == EntryCount(g, order)
  {
    if |order| > 0 {
      AllEdgeLinesCount(g, order[1..]);
    }
  }

  /** Entry `j` of the `i`-th city of `order` is written at position
      (number of entries of the cities before it) + `j` of the edge section. */
  lemma AllEdgeLinesAt(g: Graph, order: seq<string>, i: nat, j: nat)
    requires forall k :: 0 <= k < |order| ==> order[k] in g
    requires i < |order| && j < |g[order[i]]|
    ensures EntryCount(g, order[..i]) + j < |AllEdgeLines(g, order)|
    ensures AllEdgeLines(g, order)[EntryCount(g, order[..i]) + j] == EdgeLine(order[i], g[order[i]][j])
  {
    AllEdgeLinesBlock(g, order, i, j);
    EdgeLinesAt(order[i], g[order[i]], j);
  }

  /** The edge section holds the lines of the `i`-th city as one block,
      after the blocks of the cities before it. */
  lemma {:induction false} AllEdgeLinesBlock(g: Graph, order: seq<string>, i: nat, j: nat)
    requires forall k :: 0 <= k < |order| ==> order[k] in g
    requires i < |order| && j < |g[order[i]]|
    ensures EntryCount(g, order[..i]) + j < |AllEdgeLines(g, order)|
    ensures AllEdgeLines(g, order)[EntryCount(g, order[..i]) + j] == EdgeLines(order[i], g[order[i]])[j]
  {
    AllEdgeLinesCount(g, order[1..]);
    if i == 0 {
      assert order[..0] == [];
      AtStart(EdgeLines(order[0], g[order[0]]), AllEdgeLines(g, order[1..]), j);
    } else {
      AllEdgeLinesBlock(g, order[1..], i - 1, j);
      BlockStep(g, order, i, j);
    }
  }

  /** The block of the `i`-th city sits behind the first city's block. */
  lemma BlockStep(g: Graph, order: seq<string>, i: nat, j: nat)
    requires forall k :: 0 <= k < |order| ==> order[k] in g
    requires 0 < i < |order| && j < |g[order[i]]|
    requires EntryCount(g, order[1..][..i - 1]) + j < |AllEdgeLines(g, order[1..])|
    requires AllEdgeLines(g, order[1..])[EntryCount(g, order[1..][..i - 1]) + j]
             == EdgeLines(order[1..][i - 1], g[order[1..][i - 1]])[j]
    ensures EntryCount(g, order[..i]) + j < |AllEdgeLines(g, order)|
    ensures AllEdgeLines(g, order)[EntryCount(g, order[..i]) + j] == EdgeLines(order[i], g[order[i]])[j]
  {
    var first := EdgeLines(order[0], g[order[0]]);
    var rest := AllEdgeLines(g, order[1..]);
    var k := EntryCount(g, order[1..][..i - 1]) + j;
    assert AllEdgeLines(g, order) == first + rest;
    assert |first| == |g[order[0]]|;
    EntryCountCons(g, order, i);
    assert order[1..][i - 1] == order[i];
    AtOffset(first, rest, k);
  }

  lemma EntryCountCons(g: Graph, order: seq<string>, i: nat)
    requires forall k :: 0 <= k < |order| ==> order[k] in g
    requires 0 < i <= |order|
    ensures EntryCount(g, order[..i]) == |g[order[0]]| + EntryCount(g, order[1..][..i - 1])
  {
    assert order[..i][1..] == order[1..][..i - 1];
    assert order[..i][0] == order[0];
  }

  lemma AtStart<T>(a: seq<T>, b: seq<T>, k: nat)
    requires k < |a|
    ensures (a + b)[k] == a[k]
  {
  }

  lemma AtOffset<T>(a: seq<T>, b: seq<T>, k: nat)
    requires k < |b|
    ensures |a| + k < |a + b| && (a + b)[|a| + k] == b[k]
  {
  }

  /** The layout of an encoding: the cities, one per line, in `order`; one
      empty line; then the edge section, whose entries sit where
      `AllEdgeLinesAt` says. */
  lemma EncodeLayout(g: Graph, order: seq<string>)
    requires forall i :: 0 <= i < |order| ==> order[i] in g
    ensures var r := Encode(g, order);
            && |r| == |order| + 1 + EntryCount(g, order)
            && r[..|order|] == order
            && r[|order|] == ""
            && r[|order| + 1..] == AllEdgeLines(g, order)
  {
    AllEdgeLinesCount(g, order);
    var r := Encode(g, order);
    assert r[..|order|] == order;
    assert r[|order| + 1..] == AllEdgeLines(g, order);
  }

  // ---------------------------------------------------------------------
  // Decoding (loadGraph)

  /** Position of the first empty line, or the number of lines if none. */
  function FirstBlank(lines: seq<string>): (k: nat)
    ensures k <= |lines| && (k < |lines| ==> lines[k] == "")
    ensures forall i :: 0 <= i < k ==> lines[i] != ""
  {
    if |lines| == 0 || lines[0] == "" then 0 else 1 + FirstBlank(lines[1..])
  }

  /** The city loop: every line before the first empty line is passed
      verbatim to `addCity`; the empty line itself is consumed. Returns the
      graph and the lines left for the edge loop (none, when there was no
      empty line). Existing cities keep their lists; new ones start empty. */
  function LoadCities(lines: seq<string>, g: Graph): (r: (Graph, seq<string>))
    ensures r.0.Keys == g.Keys + set i | 0 <= i < FirstBlank(lines) :: lines[i]
    ensures forall c :: c in g ==> r.0[c] == g[c]
    ensures forall c :: c in r.0 && c !in g ==> r.0[c] == []
    ensures r.1 == if FirstBlank(lines) < |lines| then lines[FirstBlank(lines) + 1..] else []
    ensures WellFormed(g) ==> WellFormed(r.0)
  {
    if |lines| == 0 then (g, [])
    else if lines[0] == "" then (g, lines[1..])
    else
      CityNamesCons(lines);
      LoadCities(lines[1..], AddCity(g, lines[0]))
  }

  /** The city names of `lines` are its first line and those of the rest. */
  lemma CityNamesCons(lines: seq<string>)
    requires |lines| > 0 && lines[0] != ""
    ensures (set i | 0 <= i < FirstBlank(lines) :: lines[i])
            == {lines[0]} + set i | 0 <= i < FirstBlank(lines[1..]) :: lines[1..][i]
  {
    var a := set i | 0 <= i < FirstBlank(lines) :: lines[i];
    var b := set i | 0 <= i < FirstBlank(lines[1..]) :: lines[1..][i];
    forall x | x in a
      ensures x in {lines[0]} + b
    {
      var i :| 0 <= i < FirstBlank(lines) && lines[i] == x;
      if i > 0 {
        assert lines[1..][i - 1] == x;
      }
    }
    forall x | x in b
      ensures x in a
    {
      var i :| 0 <= i < FirstBlank(lines[1..]) && lines[1..][i] == x;
      assert lines[i + 1] == x;
    }
    assert lines[0] in a;
  }

  /** `iss >> from >> to >> dist` on one edge line: two words and a 32-bit
      integer; anything after the integer is ignored, and a line that does
      not have all three gives nothing. */
  function ParseEdge(line: string): (r: Option<(string, string, int)>)
    ensures r.Some? ==> && |r.value.0| > 0 && NoSpace(r.value.0)
                        && |r.value.1| > 0 && NoSpace(r.value.1)
                        && InInt32(r.value.2)
    ensures NoWordIn(line) ==> r.None?
  {
    var (from, rest) := NextWord(line);
    if from == "" then None
    else
      var (to, rest') := NextWord(rest);
      if to == "" then None
      else
        match ParseInt(rest')
        case None => None
        case Some(d) => Some((from, to, d))
  }

  /** Two words separated by white space, after any white space, are the
      source and target of an edge line; the line is accepted exactly when
      what follows the target reads as an integer, which becomes the
      distance. Anything after that integer is ignored. */
  lemma ParseEdgeOf(pre: string, from: string, sep: string, to: string, rest: string)
    requires NoWordIn(pre) && IsName(from) && |sep| > 0 && NoWordIn(sep) && IsName(to)
    requires rest == [] || IsSpace(rest[0])
    ensures ParseEdge(pre + (from + (sep + (to + rest)))) ==
              if ParseInt(rest).Some? then Some((from, to, ParseInt(rest).value)) else None
  {
    WordAfter(pre, from, sep + (to + rest));
    WordAfter(sep, to, rest);
  }

  /** A line with a single word is rejected. */
  lemma ParseEdgeOneWord(pre: string, from: string, rest: string)
    requires NoWordIn(pre) && IsName(from) && NoWordIn(rest)
    ensures ParseEdge(pre + (from + rest)) == None
  {
    WordAfter(pre, from, rest);
  }

  /** An entry's line followed by anything that does not continue the
      distance's digits is still read as that entry: trailing tokens are
      ignored. */
  lemma EdgeLineRest(from: string, e: Edge, rest: string)
    requires IsName(from) && IsName(e.to) && InInt32(e.dist)
    requires rest == [] || !IsDigit(rest[0])
    ensures ParseEdge(from + (" " + (e.to + (" " + (IntToString(e.dist) + rest))))) == Some((from, e.to, e.dist))
  {
    var num := " " + (IntToString(e.dist) + rest);
    ParseEdgeOf("", from, " ", e.to, num);
    assert "" + (from + (" " + (e.to + num))) == from + (" " + (e.to + num));
    IntRest(e.dist, rest);
  }

  /** The written line of an entry, with anything after it that does not
      continue the distance's digits, parses back to that entry. */
  lemma EdgeLineBackRest(from: string, e: Edge, rest: string)
    requires IsName(from) && IsName(e.to) && InInt32(e.dist)
    requires rest == [] || !IsDigit(rest[0])
    ensures ParseEdge(EdgeLine(from, e) + rest) == Some((from, e.to, e.dist))
  {
    var n := IntToString(e.dist);
    assert EdgeLine(from, e) + rest == from + (" " + (e.to + (" " + (n + rest))));
    EdgeLineRest(from, e, rest);
  }

  /** A line whose third word does not start like an integer is skipped. */
  lemma ThirdWordNotInt(x: string, a: string, b: string, tail: string)
    requires IsName(x) && IsName(a) && IsName(b)
    requires !IsDigit(b[0]) && b[0] != '-' && b[0] != '+'
    ensures ParseEdge(x + (" " + (a + (" " + (b + tail))))) == None
  {
    var rest := " " + (b + tail);
    assert "" + (b + tail) == b + tail;
    ParseIntNone(" ", "", b + tail);
    assert ParseInt(rest) == None;
    assert "" + (x + (" " + (a + rest))) == x + (" " + (a + (" " + (b + tail))));
    ParseEdgeOf("", x, " ", a, rest);
  }

  lemma Regroup(a: string, b: string, t: string)
    ensures (a + " " + b) + t == a + (" " + (b + t))
  {
  }

  /** A target name holding a space, such as "Port Sudan", is written as two
      words; the loader then reads its second word where the distance
      should be, fails, and skips the whole line. */
  lemma SpacedTargetDropped(from: string, a: string, b: string, d: int)
    requires IsName(from) && IsName(a) && IsName(b)
    requires !IsDigit(b[0]) && b[0] != '-' && b[0] != '+'
    ensures ParseEdge(EdgeLine(from, Edge(a + " " + b, d))) == None
  {
    var tail := " " + IntToString(d);
    assert EdgeLine(from, Edge(a + " " + b, d)) == from + (" " + ((a + " " + b) + tail));
    Regroup(a, b, tail);
    ThirdWordNotInt(from, a, b, tail);
  }

  /** A source name holding a space is written as two words; the loader
      takes its second word for the target and the target for the
      distance, so a target that does not start like an integer makes the
      line be skipped. */
  lemma SpacedSourceDropped(a: string, b: string, to: string, d: int)
    requires IsName(a) && IsName(b) && IsName(to)
    requires !IsDigit(to[0]) && to[0] != '-' && to[0] != '+'
    ensures ParseEdge(EdgeLine(a + " " + b, Edge(to, d))) == None
  {
    var tail := " " + IntToString(d);
    var t := " " + (to + tail);
    assert EdgeLine(a + " " + b, Edge(to, d)) == (a + " " + b) + t;
    Regroup(a, b, t);
    ThirdWordNotInt(a, b, to, tail);
  }

  /** What `<<` wrote for `d`, after a space and followed by a non-digit, is
      read back as `d`. */
  lemma IntRest(d: int, rest: string)
    requires InInt32(d) && (rest == [] || !IsDigit(rest[0]))
    ensures ParseInt(" " + (IntToString(d) + rest)) == Some(d)
  {
    var sign, n := IntToStringParts(d);
    assert IntToString(d) + rest == sign + (n + rest);
    ParseIntOf(" ", sign, n, rest);
  }

  /** One pass of the edge loop: a parsed line goes to `addEdge`, any other
      line is skipped. A parsed line makes its source a city. Its entry is
      appended to the source's list once, when it is not there already and
      its target is a city or the source itself; otherwise the list stays
      as it was. No other list changes. */
  function LoadEdgeLine(g: Graph, line: string): (r: Graph)
    ensures forall c :: c in g ==> c in r && g[c] <= r[c]
    ensures ParseEdge(line).None? ==> r == g
    ensures var p := ParseEdge(line);
            p.Some? ==> && r.Keys == g.Keys + {p.value.0}
                        && (forall c :: c in g && c != p.value.0 ==> r[c] == g[c])
                        && (p.value.1 in g ==> Edge(p.value.1, p.value.2) in r[p.value.0])
    ensures var p := ParseEdge(line);
            p.Some? ==>
              var (from, to, d) := p.value;
              r[from] == if Edge(to, d) in Neighbours(g, from) then Neighbours(g, from)
                         else if to in g || to == from then Neighbours(g, from) + [Edge(to, d)]
                         else Neighbours(g, from)
    ensures WellFormed(g) ==> WellFormed(r)
  {
    var p := ParseEdge(line);
    if p.None? then g else AddEdge(g, p.value.0, p.value.1, p.value.2).0
  }

  /** The sources of the lines that parse as edges. */
  function Sources(lines: seq<string>): set<string> {
    if |lines| == 0 then {}
    else (if ParseEdge(lines[0]).Some? then {ParseEdge(lines[0]).value.0} else {}) + Sources(lines[1..])
  }

  /** When line `i` parses as an edge whose target is in `known`, the entry
      it describes is in `r`. */
  ghost predicate EntryLoaded(lines: seq<string>, i: int, known: set<string>, r: Graph)
    requires 0 <= i < |lines|
  {
    var p := ParseEdge(lines[i]);
    p.Some? && p.value.1 in known ==> p.value.0 in r && Edge(p.value.1, p.value.2) in r[p.value.0]
  }

  /** The edge loop, over every remaining line. Existing entries are kept,
      new ones only appended; the cities added are the sources of the
      parsed lines, and every parsed line whose target is already a city
      has its entry in the result. */
  function LoadEdges(lines: seq<string>, g: Graph): (r: Graph)
    ensures forall c :: c in g ==> c in r && g[c] <= r[c]
    ensures r.Keys == g.Keys + Sources(lines)
    ensures forall i {:trigger EntryLoaded(lines, i, g.Keys, r)} :: 0 <= i < |lines| ==> EntryLoaded(lines, i, g.Keys, r)
    ensures WellFormed(g) ==> WellFormed(r)
  {
    if |lines| == 0 then g
    else
      var g1 := LoadEdgeLine(g, lines[0]);
      var r := LoadEdges(lines[1..], g1);
      FirstLineEntry(g, lines);
      LoadEdgesEntries(lines, g, g1, r);
      LoadEdgesKeys(lines, g, g1, r);
      PrefixTrans(g, g1, r);
      r
  }

  /** The cities of a whole run of lines, from those of its first line and
      of the rest. */
  lemma LoadEdgesKeys(lines: seq<string>, g: Graph, g1: Graph, r: Graph)
    requires |lines| > 0
    requires g1.Keys == g.Keys + (if ParseEdge(lines[0]).Some? then {ParseEdge(lines[0]).value.0} else {})
    requires r.Keys == g1.Keys + Sources(lines[1..])
    ensures r.Keys == g.Keys + Sources(lines)
  {
    assert Sources(lines) == (if ParseEdge(lines[0]).Some? then {ParseEdge(lines[0]).value.0} else {}) + Sources(lines[1..]);
  }

  /** Entries kept by the first line and by the rest are kept by the whole. */
  lemma PrefixTrans(g: Graph, g1: Graph, r: Graph)
    requires forall c :: c in g ==> c in g1 && g[c] <= g1[c]
    requires forall c :: c in g1 ==> c in r && g1[c] <= r[c]
    ensures forall c :: c in g ==> c in r && g[c] <= r[c]
  {
    forall c | c in g
      ensures c in r && g[c] <= r[c]
    {
      assert g[c] <= g1[c] && g1[c] <= r[c];
    }
  }

  /** The entries of a whole run of lines: the first line's entry survives
      the rest of the loop, and the others come from the rest of the loop,
      whose starting graph has at least the cities of `g`. */
  lemma LoadEdgesEntries(lines: seq<string>, g: Graph, g1: Graph, r: Graph)
    requires |lines| > 0 && EntryLoaded(lines, 0, g.Keys, g1) && g.Keys <= g1.Keys
    requires forall c :: c in g1 ==> c in r && g1[c] <= r[c]
    requires forall i {:trigger EntryLoaded(lines[1..], i, g1.Keys, r)} :: 0 <= i < |lines| - 1 ==> EntryLoaded(lines[1..], i, g1.Keys, r)
    ensures forall i {:trigger EntryLoaded(lines, i, g.Keys, r)} :: 0 <= i < |lines| ==> EntryLoaded(lines, i, g.Keys, r)
  {
    FirstEntryKept(lines, g.Keys, g1, r);
    forall i | 0 < i < |lines|
      ensures EntryLoaded(lines, i, g.Keys, r)
    {
      LaterEntryKept(lines, i, g.Keys, g1.Keys, r);
    }
  }

  /** The first line's entry is in the graph after the first line. */
  lemma FirstLineEntry(g: Graph, lines: seq<string>)
    requires |lines| > 0
    ensures EntryLoaded(lines, 0, g.Keys, LoadEdgeLine(g, lines[0]))
    ensures g.Keys <= LoadEdgeLine(g, lines[0]).Keys
  {
  }

  /** The first line's entry, put in `g1`, is still there in `r`. */
  lemma FirstEntryKept(lines: seq<string>, known: set<string>, g1: Graph, r: Graph)
    requires |lines| > 0 && EntryLoaded(lines, 0, known, g1)
    requires forall c :: c in g1 ==> c in r && g1[c] <= r[c]
    ensures EntryLoaded(lines, 0, known, r)
  {
    var p := ParseEdge(lines[0]);
    if p.Some? && p.value.1 in known {
      var e := Edge(p.value.1, p.value.2);
      assert e in g1[p.value.0];
      var k :| 0 <= k < |g1[p.value.0]| && g1[p.value.0][k] == e;
      assert g1[p.value.0] <= r[p.value.0];
      assert r[p.value.0][k] == e;
    }
  }

  /** A later line's entry comes from the rest of the loop, which knows at
      least the cities `g` knew. */
  lemma LaterEntryKept(lines: seq<string>, i: int, known: set<string>, known1: set<string>, r: Graph)
    requires 0 < i < |lines| && known <= known1
    requires EntryLoaded(lines[1..], i - 1, known1, r)
    ensures EntryLoaded(lines, i, known, r)
  {
    assert lines[1..][i - 1] == lines[i];
  }

  /** `loadGraph` on lines: cities, then edges, into `g`, which is not
      cleared first. Every city and every entry of `g` survives, and every
      line before the first empty one becomes a city. */
  function Decode(lines: seq<string>, g: Graph): (r: Graph)
    ensures forall c :: c in g ==> c in r && g[c] <= r[c]
    ensures forall i :: 0 <= i < FirstBlank(lines) ==> lines[i] in r
    ensures r.Keys == g.Keys + CityNames(lines) + Sources(EdgeSection(lines))
    ensures forall i {:trigger EntryLoaded(lines, i, g.Keys + CityNames(lines), r)} ::
              FirstBlank(lines) < i < |lines| ==> EntryLoaded(lines, i, g.Keys + CityNames(lines), r)
    ensures WellFormed(g) ==> WellFormed(r)
  {
    var cities := LoadCities(lines, g);
    var r := LoadEdges(cities.1, cities.0);
    DecodeCities(lines, g, cities.0, r);
    DecodeEntries(lines, g.Keys + CityNames(lines), r);
    r
  }

  /** The lines before the first empty line: the names the city loop adds. */
  function CityNames(lines: seq<string>): set<string> {
    set i | 0 <= i < FirstBlank(lines) :: lines[i]
  }

  /** The lines after the first empty line, if there is one. */
  function EdgeSection(lines: seq<string>): seq<string> {
    if FirstBlank(lines) < |lines| then lines[FirstBlank(lines) + 1..] else []
  }

  /** The cities of a decoded graph and the survival of what was there. */
  lemma DecodeCities(lines: seq<string>, g: Graph, cities: Graph, r: Graph)
    requires cities == LoadCities(lines, g).0
    requires forall c :: c in cities ==> c in r && cities[c] <= r[c]
    ensures forall c :: c in g ==> c in r && g[c] <= r[c]
    ensures forall i :: 0 <= i < FirstBlank(lines) ==> lines[i] in r
  {
    assert forall i :: 0 <= i < FirstBlank(lines) ==> lines[i] in cities;
  }

  /** Every parsed line of the edge section whose target is a known city
      has its entry in the decoded graph. */
  lemma DecodeEntries(lines: seq<string>, known: set<string>, r: Graph)
    requires forall j {:trigger EntryLoaded(EdgeSection(lines), j, known, r)} ::
               0 <= j < |EdgeSection(lines)| ==> EntryLoaded(EdgeSection(lines), j, known, r)
    ensures forall i {:trigger EntryLoaded(lines, i, known, r)} ::
              FirstBlank(lines) < i < |lines| ==> EntryLoaded(lines, i, known, r)
  {
    forall i | FirstBlank(lines) < i < |lines|
      ensures EntryLoaded(lines, i, known, r)
    {
      var j := i - FirstBlank(lines) - 1;
      assert EdgeSection(lines)[j] == lines[i];
      assert EntryLoaded(EdgeSection(lines), j, known, r);
    }
  }

  // ---------------------------------------------------------------------
  // The edge loop, one city at a time

  /** What one line of the edge loop does to the list `es` of city `c`,
      when `known` holds the cities so far: a parsed line from `c` appends
      its entry, unless that entry is already listed or its target is
      neither a known city nor `c` itself. */
  function ListStep(line: string, c: string, known: set<string>, es: seq<Edge>): seq<Edge> {
    var p := ParseEdge(line);
    if p.Some? && p.value.0 == c && Edge(p.value.1, p.value.2) !in es
       && (p.value.1 in known || p.value.1 == c)
    then es + [Edge(p.value.1, p.value.2)]
    else es
  }

  /** The cities after one line of the edge loop: a parsed line adds its
      source. */
  function KnownAfter(line: string, known: set<string>): set<string> {
    if ParseEdge(line).Some? then known + {ParseEdge(line).value.0} else known
  }

  /** The list of city `c` after the edge loop over `lines`, starting from
      `es` with the cities `known`. */
  function LoadList(lines: seq<string>, c: string, known: set<string>, es: seq<Edge>): seq<Edge>
    decreases |lines|
  {
    if |lines| == 0 then es
    else LoadList(lines[1..], c, KnownAfter(lines[0], known), ListStep(lines[0], c, known, es))
  }

  /** The entry of a line that parses with source `c`, if it does. */
  function FromLine(line: string, c: string): (r: seq<Edge>)
    ensures |r| <= 1
  {
    var p := ParseEdge(line);
    if p.Some? && p.value.0 == c then [Edge(p.value.1, p.value.2)] else []
  }

  /** The entries of the lines that parse with source `c`, in line order. */
  function FromLines(lines: seq<string>, c: string): seq<Edge>
    decreases |lines|
  {
    if |lines| == 0 then [] else FromLine(lines[0], c) + FromLines(lines[1..], c)
  }

  /** `a` can be obtained from `b` by dropping entries. */
  predicate IsSubseq(a: seq<Edge>, b: seq<Edge>)
    decreases |b|
  {
    |a| == 0 || (|b| > 0 && (IsSubseq(a, b[1..]) || (a[0] == b[0] && IsSubseq(a[1..], b[1..]))))
  }

  /** One line of the edge loop, seen from a single city: its list changes as
      `ListStep` says and the cities as `KnownAfter` says. */
  lemma LoadEdgeLineList(g: Graph, line: string, c: string)
    ensures LoadEdgeLine(g, line).Keys == KnownAfter(line, g.Keys)
    ensures Neighbours(LoadEdgeLine(g, line), c) == ListStep(line, c, g.Keys, Neighbours(g, c))
  {
  }

  /** The edge loop builds each city's list independently: the list of `c`
      afterwards is `LoadList` of the lines from its list before. */
  lemma {:induction false} LoadEdgesList(lines: seq<string>, g: Graph, c: string)
    ensures Neighbours(LoadEdges(lines, g), c) == LoadList(lines, c, g.Keys, Neighbours(g, c))
    decreases |lines|
  {
    if |lines| > 0 {
      var g1 := LoadEdgeLine(g, lines[0]);
      LoadEdgeLineList(g, lines[0], c);
      LoadEdgesList(lines[1..], g1, c);
      LoadEdgesUnfold(lines, g);
    }
  }

  lemma LoadEdgesUnfold(lines: seq<string>, g: Graph)
    requires |lines| > 0
    ensures LoadEdges(lines, g) == LoadEdges(lines[1..], LoadEdgeLine(g, lines[0]))
  {
  }

  /** `loadGraph`, seen from a single city: its list is its old list (empty
      for a new city) run through the edge section, with the old cities and
      the city lines known at the start. */
  lemma DecodeList(lines: seq<string>, g: Graph, c: string)
    ensures Neighbours(Decode(lines, g), c) ==
              LoadList(EdgeSection(lines), c, g.Keys + CityNames(lines), Neighbours(g, c))
  {
    var cities := LoadCities(lines, g);
    DecodeUnfold(lines, g);
    LoadEdgesList(cities.1, cities.0, c);
    assert cities.0.Keys == g.Keys + CityNames(lines);
    assert Neighbours(cities.0, c) == Neighbours(g, c);
  }

  /** The edge loop only appends: the starting list is a prefix of the
      result. */
  lemma {:induction false} LoadListPrefix(lines: seq<string>, c: string, known: set<string>, es: seq<Edge>)
    ensures es <= LoadList(lines, c, known, es)
    decreases |lines|
  {
    if |lines| > 0 {
      var es1 := ListStep(lines[0], c, known, es);
      LoadListPrefix(lines[1..], c, KnownAfter(lines[0], known), es1);
    }
  }

  /** Every entry the edge loop appends differs from every entry before it:
      a repeated edge line is dropped, and nothing already listed is added
      again. */
  lemma {:induction false} LoadListNewOnce(lines: seq<string>, c: string, known: set<string>, es: seq<Edge>)
    ensures var r := LoadList(lines, c, known, es);
            forall i, j :: 0 <= i < j < |r| && |es| <= j ==> r[i] != r[j]
    decreases |lines|
  {
    if |lines| > 0 {
      var known1 := KnownAfter(lines[0], known);
      var es1 := ListStep(lines[0], c, known, es);
      var r := LoadList(lines[1..], c, known1, es1);
      assert LoadList(lines, c, known, es) == r;
      ListStepShape(lines[0], c, known, es);
      LoadListNewOnce(lines[1..], c, known1, es1);
      LoadListPrefix(lines[1..], c, known1, es1);
      NewOnceStep(es, es1, r);
    }
  }

  /** One line of the edge loop leaves a list as it is, or appends the entry
      of the line, which parses with that city as source and is not yet in
      the list. */
  lemma ListStepShape(line: string, c: string, known: set<string>, es: seq<Edge>)
    ensures var es1 := ListStep(line, c, known, es);
            || es1 == es
            || (|FromLine(line, c)| == 1 && es1 == es + FromLine(line, c) && FromLine(line, c)[0] !in es)
  {
  }

  lemma NewOnceStep(es: seq<Edge>, es1: seq<Edge>, r: seq<Edge>)
    requires es1 == es || (|es1| == |es| + 1 && es1[..|es|] == es && es1[|es|] !in es)
    requires es1 <= r
    requires forall i, j :: 0 <= i < j < |r| && |es1| <= j ==> r[i] != r[j]
    ensures forall i, j :: 0 <= i < j < |r| && |es| <= j ==> r[i] != r[j]
  {
    forall i, j | 0 <= i < j < |r| && |es| <= j
      ensures r[i] != r[j]
    {
      if j < |es1| {
        assert j == |es| && r[j] == es1[|es|];
        assert r[i] == es1[..|es|][i];
      }
    }
  }

  /** The entries the edge loop appends to `c`'s list come from the lines
      that parse with source `c`, in line order. */
  lemma {:induction false} LoadListFromLines(lines: seq<string>, c: string, known: set<string>, es: seq<Edge>)
    ensures |es| <= |LoadList(lines, c, known, es)|
    ensures IsSubseq(LoadList(lines, c, known, es)[|es|..], FromLines(lines, c))
    decreases |lines|
  {
    if |lines| > 0 {
      var known1 := KnownAfter(lines[0], known);
      var es1 := ListStep(lines[0], c, known, es);
      var r := LoadList(lines[1..], c, known1, es1);
      assert LoadList(lines, c, known, es) == r;
      assert FromLines(lines, c) == FromLine(lines[0], c) + FromLines(lines[1..], c);
      ListStepShape(lines[0], c, known, es);
      LoadListFromLines(lines[1..], c, known1, es1);
      LoadListPrefix(lines[1..], c, known1, es1);
      SubseqStep(es, es1, r, FromLine(lines[0], c), FromLines(lines[1..], c));
    }
  }

  lemma SubseqStep(es: seq<Edge>, es1: seq<Edge>, r: seq<Edge>, head: seq<Edge>, b: seq<Edge>)
    requires |head| <= 1 && (es1 == es || (|head| == 1 && es1 == es + head))
    requires es1 <= r && IsSubseq(r[|es1|..], b)
    ensures IsSubseq(r[|es|..], head + b)
  {
    var a := r[|es|..];
    if es1 == es {
      HeadSkip(a, head, b);
    } else {
      assert a[0] == head[0] && a[1..] == r[|es1|..];
      HeadMatch(a, head, b);
    }
  }

  lemma HeadSkip(a: seq<Edge>, head: seq<Edge>, b: seq<Edge>)
    requires |head| <= 1 && IsSubseq(a, b)
    ensures IsSubseq(a, head + b)
  {
    if |head| == 1 {
      AppendedSkip(a, head[0], b);
      assert [head[0]] + b == head + b;
    } else {
      assert head + b == b;
    }
  }

  lemma HeadMatch(a: seq<Edge>, head: seq<Edge>, b: seq<Edge>)
    requires |head| == 1 && |a| > 0 && a[0] == head[0] && IsSubseq(a[1..], b)
    ensures IsSubseq(a, head + b)
  {
    AppendedMatch(a, head[0], b);
    assert [head[0]] + b == head + b;
  }

  lemma AppendedSkip(a: seq<Edge>, e: Edge, b: seq<Edge>)
    requires IsSubseq(a, b)
    ensures IsSubseq(a, [e] + b)
  {
    assert ([e] + b)[1..] == b;
  }

  lemma AppendedMatch(a: seq<Edge>, e: Edge, b: seq<Edge>)
    requires |a| > 0 && a[0] == e && IsSubseq(a[1..], b)
    ensures IsSubseq(a, [e] + b)
  {
    assert ([e] + b)[0] == e && ([e] + b)[1..] == b;
  }

  /** `loadGraph` on a text, split into lines as `getline` does. */
  function Load(text: string, g: Graph): Graph {
    Decode(GetLines(text), g)
  }

  // ---------------------------------------------------------------------
  // Round trip

  /** `order` lists every city of `g` exactly once. */
  ghost predicate Enumerates(order: seq<string>, g: Graph) {
    (forall c :: c in g <==> c in order) && Hops.Distinct(order)
  }

  /** A name survives the format: non-empty and free of white space. */
  predicate IsName(s: string) {
    |s| > 0 && NoSpace(s)
  }

  /** What a graph needs for saving then loading to give it back: it is
      well formed, every city is a name, every weight fits in 32 bits, and
      no list holds the same (target, distance) entry twice (the loader's
      `addEdge` would drop the repeat). */
  ghost predicate Storable(g: Graph) {
    && WellFormed(g)
    && (forall c :: c in g ==> IsName(c))
    && (forall c, i :: c in g && 0 <= i < |g[c]| ==> InInt32(g[c][i].dist))
    && (forall c, i, j :: c in g && 0 <= i < j < |g[c]| ==> g[c][i] != g[c][j])
  }

  /** An edge line is parsed back into its parts. */
  lemma EdgeLineBack(from: string, e: Edge)
    requires IsName(from) && IsName(e.to) && InInt32(e.dist)
    ensures ParseEdge(EdgeLine(from, e)) == Some((from, e.to, e.dist))
  {
    var n := IntToString(e.dist);
    WordBack(from, " " + (e.to + (" " + n)));
    WordBack(e.to, " " + n);
    IntBack(e.dist);
  }

  lemma {:induction false} LoadEdgesAppend(a: seq<string>, b: seq<string>, g: Graph)
    ensures LoadEdges(a + b, g) == LoadEdges(b, LoadEdges(a, g))
  {
    if |a| > 0 {
      assert (a + b)[1..] == a[1..] + b;
      LoadEdgesAppend(a[1..], b, LoadEdgeLine(g, a[0]));
    } else {
      assert a + b == b;
    }
  }

  /** `addEdge` of each entry of `es` from `c`, in order. */
  function AddEach(h: Graph, c: string, es: seq<Edge>): Graph
    decreases |es|
  {
    if |es| == 0 then h else AddEach(AddEdge(h, c, es[0].to, es[0].dist).0, c, es[1..])
  }

  /** Loading the lines written for `c`'s entries `es` performs `addEdge`
      for each of them, in order. */
  lemma {:induction false} LinesAsEdges(c: string, es: seq<Edge>, h: Graph)
    requires IsName(c)
    requires forall i :: 0 <= i < |es| ==> IsName(es[i].to) && InInt32(es[i].dist)
    ensures LoadEdges(EdgeLines(c, es), h) == AddEach(h, c, es)
  {
    if |es| == 0 {
      assert EdgeLines(c, es) == [];
    } else {
      var h1 := AddEdge(h, c, es[0].to, es[0].dist).0;
      LinesAsEdges(c, es[1..], h1);
      LinesAsEdgesStep(c, es, h, h1);
    }
  }

  /** One step of `LinesAsEdges`: the first line adds the first entry, and
      the rest of the lines are loaded as the rest of the entries. */
  lemma LinesAsEdgesStep(c: string, es: seq<Edge>, h: Graph, h1: Graph)
    requires IsName(c) && |es| > 0 && IsName(es[0].to) && InInt32(es[0].dist)
    requires h1 == AddEdge(h, c, es[0].to, es[0].dist).0
    requires LoadEdges(EdgeLines(c, es[1..]), h1) == AddEach(h1, c, es[1..])
    ensures LoadEdges(EdgeLines(c, es), h) == AddEach(h, c, es)
  {
    FirstLineBack(c, es, h);
  }

  /** The first line of a city's list is loaded as `addEdge` of its entry. */
  lemma FirstLineBack(c: string, es: seq<Edge>, h: Graph)
    requires IsName(c) && |es| > 0 && IsName(es[0].to) && InInt32(es[0].dist)
    ensures LoadEdges(EdgeLines(c, es), h) == LoadEdges(EdgeLines(c, es[1..]), AddEdge(h, c, es[0].to, es[0].dist).0)
  {
    var e := es[0];
    EdgeLinesCons(c, es);
    EdgeLineBack(c, e);
    LoadEdgesCons(EdgeLines(c, es), h);
  }

  lemma EdgeLinesCons(c: string, es: seq<Edge>)
    requires |es| > 0
    ensures EdgeLines(c, es)[0] == EdgeLine(c, es[0]) && EdgeLines(c, es)[1..] == EdgeLines(c, es[1..])
  {
    assert EdgeLines(c, es) == [EdgeLine(c, es[0])] + EdgeLines(c, es[1..]);
  }

  lemma LoadEdgesCons(lines: seq<string>, h: Graph)
    requires |lines| > 0
    ensures LoadEdges(lines, h) == LoadEdges(lines[1..], LoadEdgeLine(h, lines[0]))
  {
  }

  /** `addEdge` of an entry new to an existing city's list, whose target is
      a city, appends the entry. */
  lemma AddEdgeAppends(h: Graph, c: string, e: Edge)
    requires c in h && e.to in h && e !in h[c]
    ensures AddEdge(h, c, e.to, e.dist).0 == h[c := h[c] + [e]]
  {
    assert Edge(e.to, e.dist) == e;
  }

  /** Adding entries that are new to `c`'s list, whose targets are cities,
      appends them. */
  lemma {:induction false} AddEachAppends(c: string, es: seq<Edge>, h: Graph)
    requires c in h
    requires forall i :: 0 <= i < |es| ==> es[i].to in h && es[i] !in h[c]
    requires forall i, j :: 0 <= i < j < |es| ==> es[i] != es[j]
    ensures AddEach(h, c, es) == h[c := h[c] + es]
  {
    if |es| == 0 {
      assert h[c] + es == h[c];
      assert h[c := h[c] + es] == h;
    } else {
      var h1 := h[c := h[c] + [es[0]]];
      AddEdgeAppends(h, c, es[0]);
      TailStillNew(c, es, h);
      AddEachAppends(c, es[1..], h1);
      AppendInTwo(h, c, es);
    }
  }

  /** After the first entry is appended, the remaining ones are still new. */
  lemma TailStillNew(c: string, es: seq<Edge>, h: Graph)
    requires c in h && |es| > 0
    requires forall i :: 0 <= i < |es| ==> es[i].to in h && es[i] !in h[c]
    requires forall i, j :: 0 <= i < j < |es| ==> es[i] != es[j]
    ensures var h1 := h[c := h[c] + [es[0]]];
            && (forall i :: 0 <= i < |es[1..]| ==> es[1..][i].to in h1 && es[1..][i] !in h1[c])
            && (forall i, j :: 0 <= i < j < |es[1..]| ==> es[1..][i] != es[1..][j])
  {
    var h1 := h[c := h[c] + [es[0]]];
    forall i | 0 <= i < |es[1..]|
      ensures es[1..][i].to in h1 && es[1..][i] !in h1[c]
    {
      assert es[1..][i] == es[i + 1];
    }
  }

  lemma AppendInTwo(h: Graph, c: string, es: seq<Edge>)
    requires c in h && |es| > 0
    ensures var h1 := h[c := h[c] + [es[0]]];
            h1[c := h1[c] + es[1..]] == h[c := h[c] + es]
  {
    var h1 := h[c := h[c] + [es[0]]];
    assert h1[c] + es[1..] == h[c] + es;
  }

  /** Loading the lines of `es` for city `c` appends `es` to `c`'s list,
      when each entry is new to the list and its target is a city. */
  lemma CityLinesBack(c: string, es: seq<Edge>, h: Graph)
    requires c in h && IsName(c)
    requires forall i :: 0 <= i < |es| ==> es[i].to in h && IsName(es[i].to) && InInt32(es[i].dist)
    requires forall i :: 0 <= i < |es| ==> es[i] !in h[c]
    requires forall i, j :: 0 <= i < j < |es| ==> es[i] != es[j]
    ensures LoadEdges(EdgeLines(c, es), h) == h[c := h[c] + es]
  {
    LinesAsEdges(c, es, h);
    AddEachAppends(c, es, h);
  }

  /** `r` has the cities of `h`; those of `ord` hold their lists from `g`,
      the others keep their lists from `h`. */
  ghost predicate Filled(r: Graph, h: Graph, g: Graph, ord: seq<string>) {
    && r.Keys == h.Keys
    && forall c :: c in h ==> r[c] == if c in ord && c in g then g[c] else h[c]
  }

  /** Loading the edge section for the cities of `ord`, each starting with an
      empty list, gives each of them its list from `g`. */
  lemma {:induction false} EdgesBack(g: Graph, ord: seq<string>, h: Graph)
    requires Storable(g) && h.Keys == g.Keys
    requires forall i :: 0 <= i < |ord| ==> ord[i] in g && h[ord[i]] == []
    requires Hops.Distinct(ord)
    ensures Filled(LoadEdges(AllEdgeLines(g, ord), h), h, g, ord)
  {
    if |ord| == 0 {
    } else {
      var c := ord[0];
      var h1 := h[c := g[c]];
      assert AllEdgeLines(g, ord) == EdgeLines(c, g[c]) + AllEdgeLines(g, ord[1..]);
      LoadEdgesAppend(EdgeLines(c, g[c]), AllEdgeLines(g, ord[1..]), h);
      CityBack(g, c, h);
      TailEmpty(g, ord, h);
      EdgesBack(g, ord[1..], h1);
      FilledStep(LoadEdges(AllEdgeLines(g, ord), h), h, g, ord);
    }
  }

  /** One city's lines, loaded into an empty list for it, give its list. */
  lemma CityBack(g: Graph, c: string, h: Graph)
    requires Storable(g) && h.Keys == g.Keys && c in g && h[c] == []
    ensures LoadEdges(EdgeLines(c, g[c]), h) == h[c := g[c]]
  {
    forall i | 0 <= i < |g[c]|
      ensures g[c][i].to in h && IsName(g[c][i].to) && InInt32(g[c][i].dist)
    {
    }
    CityLinesBack(c, g[c], h);
    assert h[c] + g[c] == g[c];
  }

  /** Filling the first city of `ord` leaves the others empty. */
  lemma TailEmpty(g: Graph, ord: seq<string>, h: Graph)
    requires |ord| > 0 && h.Keys == g.Keys && Hops.Distinct(ord)
    requires forall i :: 0 <= i < |ord| ==> ord[i] in g && h[ord[i]] == []
    ensures Hops.Distinct(ord[1..])
    ensures forall i :: 0 <= i < |ord[1..]| ==> ord[1..][i] in g && h[ord[0] := g[ord[0]]][ord[1..][i]] == []
  {
    forall i | 0 <= i < |ord[1..]|
      ensures ord[1..][i] in g && h[ord[0] := g[ord[0]]][ord[1..][i]] == []
    {
      assert ord[1..][i] == ord[i + 1] && ord[i + 1] != ord[0];
    }
  }

  lemma FilledStep(r: Graph, h: Graph, g: Graph, ord: seq<string>)
    requires |ord| > 0 && ord[0] in h && ord[0] in g
    requires Filled(r, h[ord[0] := g[ord[0]]], g, ord[1..])
    ensures Filled(r, h, g, ord)
  {
    var c := ord[0];
    assert h[c := g[c]].Keys == h.Keys;
    assert r.Keys == h.Keys;
    forall c' | c' in h
      ensures r[c'] == if c' in ord && c' in g then g[c'] else h[c']
    {
      if c' != c {
        assert c' in ord <==> c' in ord[1..];
      }
    }
  }

  /** Decoding an encoding into an empty graph gives the graph back, entry
      order included. */
  lemma RoundTrip(g: Graph, order: seq<string>)
    requires Enumerates(order, g) && Storable(g)
    ensures Decode(Encode(g, order), map[]) == g
  {
    DecodeEncoded(g, order);
    EdgeSectionBack(g, order);
  }

  /** The edge section, loaded into every city with an empty list, gives
      back every list. */
  lemma EdgeSectionBack(g: Graph, order: seq<string>)
    requires Enumerates(order, g) && Storable(g)
    ensures LoadEdges(AllEdgeLines(g, order), map c | c in g :: []) == g
  {
    var blank := map c | c in g :: [];
    EdgesBack(g, order, blank);
    FilledAll(LoadEdges(AllEdgeLines(g, order), blank), g, order);
  }

  /** The city section of the text gives every city with an empty list,
      and the edge loop then reads the edge section. */
  lemma DecodeEncoded(g: Graph, order: seq<string>)
    requires Enumerates(order, g) && forall c :: c in g ==> IsName(c)
    ensures Decode(Encode(g, order), map[]) == LoadEdges(AllEdgeLines(g, order), map c | c in g :: [])
  {
    var lines := Encode(g, order);
    EncodeLayout(g, order);
    CitiesBack(lines, g, order);
    DecodeUnfold(lines, map[]);
  }

  /** `loadGraph` is the city loop followed by the edge loop. */
  lemma DecodeUnfold(lines: seq<string>, g: Graph)
    ensures Decode(lines, g) == LoadEdges(LoadCities(lines, g).1, LoadCities(lines, g).0)
  {
  }

  /** Every city of `g` filled from `g` gives `g`. */
  lemma FilledAll(r: Graph, g: Graph, order: seq<string>)
    requires Enumerates(order, g) && Filled(r, map c | c in g :: [], g, order)
    ensures r == g
  {
    assert r.Keys == g.Keys;
    assert forall c :: c in g ==> r[c] == g[c];
  }

  /** Lines that start with the cities of `order` and then an empty line,
      loaded into an empty graph, give every city with an empty list and
      leave the lines after the empty one. */
  lemma CitiesBack(lines: seq<string>, g: Graph, order: seq<string>)
    requires Enumerates(order, g) && forall c :: c in g ==> IsName(c)
    requires |order| < |lines| && lines[..|order|] == order && lines[|order|] == ""
    ensures LoadCities(lines, map[]) == (map c | c in g :: [], lines[|order| + 1..])
  {
    forall i | 0 <= i < |order|
      ensures lines[i] == order[i] && lines[i] != ""
    {
      assert lines[i] == lines[..|order|][i];
      assert order[i] in g;
    }
    FirstBlankAt(lines, |order|);
    var r := LoadCities(lines, map[]);
    forall c | c in g
      ensures c in r.0
    {
      var k :| 0 <= k < |order| && order[k] == c;
      assert lines[k] == c;
    }
    BlankMap(r.0, g);
  }

  lemma BlankMap(m: Graph, g: Graph)
    requires m.Keys == g.Keys && forall c :: c in m ==> m[c] == []
    ensures m == map c | c in g :: []
  {
  }

  /** The first empty line of `lines` is at `k` when the lines before `k`
      are all non-empty. */
  lemma FirstBlankAt(lines: seq<string>, k: nat)
    requires k < |lines| && lines[k] == "" && forall i :: 0 <= i < k ==> lines[i] != ""
    ensures FirstBlank(lines) == k
  {
  }

  /** Saving then loading into an empty graph gives the graph back: no
      line of the file holds a newline, so `getline` recovers the lines. */
  lemma SaveLoad(g: Graph, order: seq<string>)
    requires Enumerates(order, g) && Storable(g)
    ensures Load(Save(g, order), map[]) == g
  {
    var lines := Encode(g, order);
    forall i | 0 <= i < |lines|
      ensures NoNewline(lines[i])
    {
      LinesHaveNoNewline(g, order, i);
    }
    LinesBack(lines);
    RoundTrip(g, order);
  }

  lemma LinesHaveNoNewline(g: Graph, order: seq<string>, i: int)
    requires Enumerates(order, g) && Storable(g) && 0 <= i < |Encode(g, order)|
    ensures NoNewline(Encode(g, order)[i])
  {
    var lines := Encode(g, order);
    var edges := AllEdgeLines(g, order);
    assert lines == order + [""] + edges;
    if i > |order| {
      EdgeSectionNoNewline(g, order);
      assert lines[i] == edges[i - |order| - 1];
    } else if i < |order| {
      assert lines[i] == order[i];
      assert order[i] in g;
      NoNewlineAppend(order[i], "");
      assert order[i] + "" == order[i];
    }
  }

  lemma {:induction false} EdgeSectionNoNewline(g: Graph, order: seq<string>)
    requires Storable(g) && forall i :: 0 <= i < |order| ==> order[i] in g
    ensures forall k :: 0 <= k < |AllEdgeLines(g, order)| ==> NoNewline(AllEdgeLines(g, order)[k])
  {
    if |order| > 0 {
      var c := order[0];
      EdgeSectionNoNewline(g, order[1..]);
      var first := EdgeLines(c, g[c]);
      forall j | 0 <= j < |first|
        ensures NoNewline(first[j])
      {
        EdgeLinesAt(c, g[c], j);
        assert IsName(g[c][j].to);
        EdgeLineNoNewline(c, g[c][j]);
      }
      LinesNoNewlineAppend(first, AllEdgeLines(g, order[1..]));
    }
  }

  /** Concatenated runs of newline-free lines stay newline free. */
  lemma LinesNoNewlineAppend(a: seq<string>, b: seq<string>)
    requires forall k :: 0 <= k < |a| ==> NoNewline(a[k])
    requires forall k :: 0 <= k < |b| ==> NoNewline(b[k])
    ensures forall k :: 0 <= k < |a + b| ==> NoNewline((a + b)[k])
  {
    forall k | 0 <= k < |a + b|
      ensures NoNewline((a + b)[k])
    {
      if k < |a| {
        assert (a + b)[k] == a[k];
      } else {
        assert (a + b)[k] == b[k - |a|];
      }
    }
  }

  /** An edge line of names and a number holds no newline. */
  lemma EdgeLineNoNewline(from: string, e: Edge)
    requires IsName(from) && IsName(e.to)
    ensures NoNewline(EdgeLine(from, e))
  {
    var n := IntToString(e.dist);
    NoNewlineAppend(" ", n);
    NoNewlineAppend(e.to, " " + n);
    NoNewlineAppend(" ", e.to + (" " + n));
    NoNewlineAppend(from, " " + (e.to + (" " + n)));
  }

  lemma NoNewlineAppend(a: string, b: string)
    requires NoNewline(a) || NoSpace(a)
    requires NoNewline(b) || NoSpace(b)
    ensures NoNewline(a + b)
  {
    forall k | 0 <= k < |a + b|
      ensures (a + b)[k] != '\n'
    {
      if k < |a| {
        assert (a + b)[k] == a[k];
      } else {
        assert (a + b)[k] == b[k - |a|];
      }
    }
  }
}

=== FILE: decimal.dfy ===
/** The pieces of C++ stream formatting and extraction the text codec
    relies on: writing an `int` in decimal, skipping white space, reading a
    white-space-delimited word (`>> string`) and reading an `int`
    (`>> int`), and splitting a text into lines (`getline`). */
module Decimal {
  import opened Wrappers

  /** The range of the source's 32-bit `int`. */
  const IntMin: int := -0x8000_0000
  const IntMax: int := 0x7FFF_FFFF

  predicate InInt32(i: int) {
    IntMin <= i <= IntMax
  }

  predicate IsDigit(c: char) {
    '0' <= c <= '9'
  }

  /** The characters `isspace` accepts in the "C" locale. */
  predicate IsSpace(c: char) {
    c == ' ' || c == '\t' || c == '\n' || c == '\U{000B}' || c == '\U{000C}' || c == '\r'
  }

  predicate AllDigits(s: string) {
    forall i :: 0 <= i < |s| ==> IsDigit(s[i])
  }

  predicate NoSpace(s: string) {
    forall i :: 0 <= i < |s| ==> !IsSpace(s[i])
  }

  // ---------------------------------------------------------------------
  // Writing

  function DigitChar(d: nat): (c: char)
    requires d < 10
    ensures IsDigit(c) && (c as int) - ('0' as int) == d
  {
    (('0' as int) + d) as char
  }

  /** Decimal digits of `n`, most significant first, without leading zeros. */
  function NatToString(n: nat): (s: string)
    ensures |s| >= 1 && AllDigits(s)
    ensures |s| > 1 ==> s[0] != '0'
    decreases n
  {
    if n < 10 then [DigitChar(n)] else NatToString(n / 10) + [DigitChar(n % 10)]
  }

  /** `ostream << int`: a minus sign for negative values, then the digits. */
  function IntToString(i: int): (s: string)
    ensures |s| >= 1 && NoSpace(s)
    ensures i >= 0 ==> AllDigits(s)
    ensures i < 0 ==> s[0] == '-' && AllDigits(s[1..])
  {
    if i < 0 then "-" + NatToString(-i) else NatToString(i)
  }

  // ---------------------------------------------------------------------
  // Reading

  /** The value of a digit string. */
  function DigitsValue(s: string): nat
    requires AllDigits(s)
  {
    if |s| == 0 then 0
    else DigitsValue(s[..|s| - 1]) * 10 + ((s[|s| - 1] as int) - ('0' as int))
  }

  /** Reading back the digits of `n` gives `n`. */
  lemma {:induction false} DigitsOfNat(n: nat)
    ensures DigitsValue(NatToString(n)) == n
    decreases n
  {
    if n >= 10 {
      DigitsOfNat(n / 10);
      var s := NatToString(n);
      assert s[..|s| - 1] == NatToString(n / 10);
    }
  }

  /** What the stream skips before extracting anything. */
  function SkipSpace(s: string): (r: string)
    ensures |r| <= |s| && r == s[|s| - |r|..]
    ensures r == [] || !IsSpace(r[0])
    ensures forall i :: 0 <= i < |s| - |r| ==> IsSpace(s[i])
  {
    if |s| > 0 && IsSpace(s[0]) then SkipSpace(s[1..]) else s
  }

  /** Number of leading characters of `s` satisfying the word or digit test. */
  function WordLen(s: string): (n: nat)
    ensures n <= |s| && NoSpace(s[..n]) && (n < |s| ==> IsSpace(s[n]))
  {
    if |s| > 0 && !IsSpace(s[0]) then 1 + WordLen(s[1..]) else 0
  }

  function DigitLen(s: string): (n: nat)
    ensures n <= |s| && AllDigits(s[..n]) && (n < |s| ==> !IsDigit(s[n]))
  {
    if |s| > 0 && IsDigit(s[0]) then 1 + DigitLen(s[1..]) else 0
  }

  /** `>> string`: skip white space, then take the longest run of
      non-space characters. The word is empty exactly when extraction
      fails (nothing but white space was left). Returns the word and what
      follows it. */
  function NextWord(s: string): (r: (string, string))
    ensures NoSpace(r.0) && (r.1 == [] || IsSpace(r.1[0]))
    ensures r.0 == [] <==> NoWordIn(s)
    ensures exists k :: 0 <= k <= |s| && NoWordIn(s[..k]) && s[k..] == r.0 + r.1
  {
    var t := SkipSpace(s);
    var n := WordLen(t);
    WordLenEmpty(t);
    NextWordSplit(s, t, n);
    (t[..n], t[n..])
  }

  /** The white space `SkipSpace` passes over, followed by the word and what
      is left after it, make up the whole input. */
  lemma NextWordSplit(s: string, t: string, n: nat)
    requires |t| <= |s| && t == s[|s| - |t|..] && n <= |t|
    requires forall i :: 0 <= i < |s| - |t| ==> IsSpace(s[i])
    requires t == [] || !IsSpace(t[0])
    requires n == 0 <==> t == []
    ensures NoWordIn(s[..|s| - |t|]) && s[|s| - |t|..] == t[..n] + t[n..]
    ensures t[..n] == [] <==> NoWordIn(s)
  {
    var k := |s| - |t|;
    forall i | 0 <= i < k
      ensures s[..k][i] == s[i]
    {
    }
    assert t[..n] + t[n..] == t;
    if n == 0 {
      assert s[..k] == s;
    } else {
      assert s[k] == t[0];
    }
  }

  /** Past skipped white space, a word is empty only at the end of input. */
  lemma WordLenEmpty(t: string)
    requires t == [] || !IsSpace(t[0])
    ensures WordLen(t) == 0 <==> t == []
  {
    if t != [] {
      assert WordLen(t) == 1 + WordLen(t[1..]);
    }
  }

  /** Only white space is left. */
  predicate NoWordIn(s: string) {
    forall i :: 0 <= i < |s| ==> IsSpace(s[i])
  }

  /** `>> int`: skip white space, read an optional sign and then decimal
      digits as far as they go. No digits, or a value outside the 32-bit
      range, is a failed extraction. What follows the digits is left in the
      stream and plays no part. */
  function ParseInt(s: string): (r: Option<int>)
    ensures r.Some? ==> InInt32(r.value)
  {
    ReadInt(SkipSpace(s))
  }

  /** The sign-and-digits part of `>> int`, once white space is skipped. */
  function ReadInt(t: string): (r: Option<int>)
    ensures r.Some? ==> InInt32(r.value)
  {
    var signed := |t| > 0 && (t[0] == '-' || t[0] == '+');
    var u := if signed then t[1..] else t;
    var n := DigitLen(u);
    if n == 0 then None
    else
      var v: int := if signed && t[0] == '-' then -(DigitsValue(u[..n]) as int) else DigitsValue(u[..n]);
      if InInt32(v) then Some(v) else None
  }

  /** Skipping white space passes over a white-space prefix and stops at
      the first other character. */
  lemma {:induction false} SkipSpaceOver(pre: string, x: string)
    requires NoWordIn(pre) && (x == [] || !IsSpace(x[0]))
    ensures SkipSpace(pre + x) == x
  {
    if |pre| > 0 {
      assert (pre + x)[1..] == pre[1..] + x;
      SkipSpaceOver(pre[1..], x);
    } else {
      assert pre + x == x;
    }
  }

  /** After any white space, a non-empty word followed by white space (or
      nothing) is read as that word, leaving the rest. */
  lemma WordAfter(pre: string, w: string, rest: string)
    requires NoWordIn(pre) && |w| > 0 && NoSpace(w) && (rest == [] || IsSpace(rest[0]))
    ensures NextWord(pre + (w + rest)) == (w, rest)
  {
    SkipSpaceOver(pre, w + rest);
    WordLenOf(w, rest);
  }

  /** The value of an optional sign followed by digits. */
  function SignedValue(sign: string, ds: string): int
    requires AllDigits(ds)
  {
    if sign == "-" then -(DigitsValue(ds) as int) else DigitsValue(ds)
  }

  /** `>> int` after any white space, an optional sign and a run of digits:
      the value of the digits (leading zeros allowed), negated after a minus,
      when it fits in 32 bits; otherwise the extraction fails. Whatever
      follows the digits is not read. */
  lemma ParseIntOf(pre: string, sign: string, ds: string, rest: string)
    requires NoWordIn(pre) && (sign == "" || sign == "-" || sign == "+")
    requires |ds| > 0 && AllDigits(ds) && (rest == [] || !IsDigit(rest[0]))
    ensures ParseInt(pre + (sign + (ds + rest))) ==
              if InInt32(SignedValue(sign, ds)) then Some(SignedValue(sign, ds)) else None
  {
    SkipSpaceOver(pre, sign + (ds + rest));
    ReadIntOf(sign, ds, rest);
  }

  lemma ReadIntOf(sign: string, ds: string, rest: string)
    requires sign == "" || sign == "-" || sign == "+"
    requires |ds| > 0 && AllDigits(ds) && (rest == [] || !IsDigit(rest[0]))
    ensures ReadInt(sign + (ds + rest)) ==
              if InInt32(SignedValue(sign, ds)) then Some(SignedValue(sign, ds)) else None
  {
    var t := sign + (ds + rest);
    var u := ds + rest;
    DigitLenOf(ds, rest);
    assert u[..|ds|] == ds;
    if sign == "" {
      assert t == u;
    } else {
      assert t[1..] == u;
    }
  }

  /** `>> int` fails when, after the white space and an optional sign, no
      digit follows. */
  lemma ParseIntNone(pre: string, sign: string, rest: string)
    requires NoWordIn(pre) && (sign == "" || sign == "-" || sign == "+")
    requires rest == [] || !IsDigit(rest[0])
    requires sign == "" ==> rest == [] || (!IsSpace(rest[0]) && rest[0] != '-' && rest[0] != '+')
    ensures ParseInt(pre + (sign + rest)) == None
  {
    SkipSpaceOver(pre, sign + rest);
    ReadIntNone(sign, rest);
  }

  lemma ReadIntNone(sign: string, rest: string)
    requires sign == "" || sign == "-" || sign == "+"
    requires rest == [] || !IsDigit(rest[0])
    requires sign == "" ==> rest == [] || (rest[0] != '-' && rest[0] != '+')
    ensures ReadInt(sign + rest) == None
  {
    var t := sign + rest;
    if sign == "" {
      assert t == rest;
    } else {
      assert t[1..] == rest;
    }
  }

  lemma {:induction false} DigitLenOf(ds: string, rest: string)
    requires AllDigits(ds) && (rest == [] || !IsDigit(rest[0]))
    ensures DigitLen(ds + rest) == |ds|
  {
    if |ds| > 0 {
      assert (ds + rest)[1..] == ds[1..] + rest;
      DigitLenOf(ds[1..], rest);
    } else {
      assert ds + rest == rest;
    }
  }

  /** A non-empty word followed by white space (or nothing) is read back as
      itself, leaving the rest. */
  lemma WordBack(w: string, rest: string)
    requires |w| > 0 && NoSpace(w) && (rest == [] || IsSpace(rest[0]))
    ensures NextWord(w + rest) == (w, rest)
    ensures NextWord(" " + (w + rest)) == (w, rest)
  {
    WordLenOf(w, rest);
    assert (" " + (w + rest))[1..] == w + rest;
  }

  lemma {:induction false} WordLenOf(w: string, rest: string)
    requires NoSpace(w) && (rest == [] || IsSpace(rest[0]))
    ensures WordLen(w + rest) == |w|
  {
    if |w| > 0 {
      assert (w + rest)[1..] == w[1..] + rest;
      WordLenOf(w[1..], rest);
    } else {
      assert w + rest == rest;
    }
  }

  lemma {:induction false} DigitLenAll(s: string)
    requires AllDigits(s)
    ensures DigitLen(s) == |s|
  {
    if |s| > 0 {
      DigitLenAll(s[1..]);
    }
  }

  /** `>> int` reads back what `<< int` wrote, for every 32-bit value; the
      reading may start after white space. */
  lemma IntBack(i: int)
    requires InInt32(i)
    ensures ParseInt(IntToString(i)) == Some(i)
    ensures ParseInt(" " + IntToString(i)) == Some(i)
  {
    var s := IntToString(i);
    assert SkipSpace(s) == s;
    assert (" " + s)[1..] == s;
    assert SkipSpace(" " + s) == s;
    ReadIntBack(i);
  }

  lemma ReadIntBack(i: int)
    requires InInt32(i)
    ensures ReadInt(IntToString(i)) == Some(i)
  {
    var sign, ds := IntToStringParts(i);
    assert IntToString(i) == sign + (ds + "");
    ReadIntOf(sign, ds, "");
  }

  /** What `<< int` writes is an optional minus sign and digits whose
      signed value is the integer written. */
  lemma IntToStringParts(i: int) returns (sign: string, ds: string)
    ensures (sign == "" || sign == "-") && |ds| > 0 && AllDigits(ds)
    ensures IntToString(i) == sign + ds && SignedValue(sign, ds) == i
  {
    sign := if i < 0 then "-" else "";
    ds := NatToString(if i < 0 then -i else i);
    DigitsOfNat(if i < 0 then -i else i);
  }

  // ---------------------------------------------------------------------
  // Lines

  /** Writing lines, each followed by a newline (`<< endl`). */
  function Text(lines: seq<string>): string {
    if |lines| == 0 then [] else lines[0] + "\n" + Text(lines[1..])
  }

  /** Repeated `getline`: each call returns the characters up to the next
      newline and consumes it; a last line without a newline is still
      returned, and an exhausted text ends the loop. */
  function GetLines(text: string): seq<string>
    decreases |text|
  {
    if |text| == 0 then []
    else
      var n := LineLen(text);
      if n == |text| then [text] else [text[..n]] + GetLines(text[n + 1..])
  }

  function LineLen(s: string): (n: nat)
    ensures n <= |s| && (forall i :: 0 <= i < n ==> s[i] != '\n') && (n < |s| ==> s[n] == '\n')
  {
    if |s| > 0 && s[0] != '\n' then 1 + LineLen(s[1..]) else 0
  }

  predicate NoNewline(s: string) {
    forall i :: 0 <= i < |s| ==> s[i] != '\n'
  }

  lemma {:induction false} LineLenOf(l: string, rest: string)
    requires NoNewline(l)
    ensures LineLen(l + "\n" + rest) == |l|
  {
    if |l| > 0 {
      assert (l + "\n" + rest)[1..] == l[1..] + "\n" + rest;
      LineLenOf(l[1..], rest);
    }
  }

  /** Reading back the lines of a written text gives those lines, as long
      as none of them holds a newline. */
  lemma {:induction false} LinesBack(lines: seq<string>)
    requires forall i :: 0 <= i < |lines| ==> NoNewline(lines[i])
    ensures GetLines(Text(lines)) == lines
  {
    if |lines| > 0 {
      var t := Text(lines);
      assert t == lines[0] + "\n" + Text(lines[1..]);
      LineLenOf(lines[0], Text(lines[1..]));
      assert t[..|lines[0]|] == lines[0];
      assert t[|lines[0]| + 1..] == Text(lines[1..]);
      LinesBack(lines[1..]);
    }
  }
}

=== FILE: dijkstra.dfy ===
/** `Dijkstra::dijkstra`: a lazy priority-queue search from the start that
    skips stale entries and stops as soon as the end city is popped. */
module Dijkstra {
  import opened Wrappers
  import opened Graph
  import opened Search

  /** The path and total distance that the source displays. */
  datatype Route = Route(path: seq<string>, cost: int)

  /** The two messages the search prints instead of a path. */
  datatype PathError = NotFound | NoPath

  /** Dijkstra's queue priority is the distance alone. */
  function Zero(a: string, b: string): nat { 0 }

  /** One pass of the search loop: pop the first entry; skip it when its
      priority exceeds the city's recorded distance; stop when it is the
      end city (whose distance is then the least possible); otherwise relax
      the city's edges. */
  method Round(g: Graph, start: string, end: string, st: State, ghost bk: Book)
    returns (st': State, ghost bk': Book, arrived: bool)
    requires WellFormed(g) && NonNegative(g) && Inv(g, start, end, Zero, st, bk) && |st.pq| > 0
    ensures Inv(g, start, end, Zero, st', bk')
    ensures arrived ==> st' == st && end in st.dist && LowerBound(g, start, end, st.dist[end])
    ensures !arrived ==> Ahead(st.dist, st'.dist) || (st'.dist == st.dist && |st'.pq| < |st.pq|)
  {
    var e, rest := PopMin(st.pq);
    var current := e.city;
    assert current in st.dist;
    if e.pri > st.dist[current] {
      st', bk', arrived := st.(pq := rest), bk, false;
      forall v | v in st'.dist && v !in bk'.settled
        ensures Queued(st', Zero, end, v)
      {
        assert Queued(st, Zero, end, v);
      }
      return;
    }
    if current == end {
      PopIsOptimal(g, start, end, Zero, st, bk, e);
      return st, bk, true;
    }
    var working := st.(pq := rest);
    ghost var wb := bk.(settled := bk.settled - {current});
    forall v | v in working.dist && v !in wb.settled + {current}
      ensures Queued(working, Zero, end, v)
    {
      assert Queued(st, Zero, end, v);
    }
    st', bk' := Relax(g, start, end, Zero, working, wb, current);
    arrived := false;
  }

  /** `Dijkstra::dijkstra`. An unknown start or end is reported as such; an
      end left at infinity is reported as having no path, which happens
      exactly when no walk leads there; otherwise the result is a walk from
      start to end whose weights add up to the reported distance, and no
      walk weighs less. */
  method Dijkstra(g: Graph, start: string, end: string) returns (r: Result<Route, PathError>)
    requires WellFormed(g) && NonNegative(g)
    ensures r == Failure(NotFound) <==> start !in g || end !in g
    ensures r == Failure(NoPath) <==> start in g && end in g && !Connected(g, start, end)
    ensures r.Success? ==> exists ws :: WalkBetween(g, r.value.path, ws, start, end) && Sum(ws) == r.value.cost
    ensures r.Success? ==> IsMinCost(g, start, end, r.value.cost)
    ensures start in g && start == end ==> r == Success(Route([start], 0))
  {
    if start !in g || end !in g {
      return Failure(NotFound);
    }
    var st := State(map[start := 0], map[], multiset{Entry(0, start)});
    ghost var bk := Book(map[], map[start := 0], 1, {});
    Initial(g, start, end, Zero);
    var found := false;
    while |st.pq| > 0
      invariant Inv(g, start, end, Zero, st, bk) && !found
      decreases |g.Keys - st.dist.Keys|, SumValues(st.dist), |st.pq|
    {
      var st', bk', arrived := Round(g, start, end, st, bk);
      if arrived {
        found := true;
        break;
      }
      if Ahead(st.dist, st'.dist) {
        AheadMeasure(g.Keys, st.dist, st'.dist);
      }
      st, bk := st', bk';
    }
    if !found {
      Exhausted(g, start, end, Zero, st, bk);
    }
    if end !in st.dist {
      return Failure(NoPath);
    }
    var path;
    ghost var ws;
    path, ws := ReconstructPath(st.prev, start, end, g, st, bk);
    return Success(Route(path, st.dist[end]));
  }
}

=== FILE: graph.dfy ===
/** The city graph store: a map from city name to its ordered list of
    outgoing (target, distance) entries, and the four mutators. Every
    mutator is a pure function from the old adjacency map to the new one. */
module Graph {

  /** One entry of a city's neighbour list: the target city and the distance. */
  datatype Edge = Edge(to: string, dist: int)

  type Graph = map<string, seq<Edge>>

  /** What a mutator reports on the console, as a value. */
  datatype Status = Added | AlreadyExists | CityNotFound(name: string) | Removed

  /** The store's invariant: every edge target is itself a city. */
  ghost predicate WellFormed(g: Graph) {
    forall v, i :: v in g && 0 <= i < |g[v]| ==> g[v][i].to in g
  }

  /** No edge weight is negative; the store does not enforce this. */
  ghost predicate NonNegative(g: Graph) {
    forall v, i :: v in g && 0 <= i < |g[v]| ==> g[v][i].dist >= 0
  }

  /** The neighbour list of `v`, empty for an unknown city. */
  function Neighbours(g: Graph, v: string): seq<Edge> {
    if v in g then g[v] else []
  }

  /** The target cities of a neighbour list, in list order. */
  function Targets(es: seq<Edge>): (r: seq<string>)
    ensures |r| == |es|
    ensures forall i :: 0 <= i < |es| ==> r[i] == es[i].to
  {
    if |es| == 0 then [] else [es[0].to] + Targets(es[1..])
  }

  /** addCity: a new name gets an empty neighbour list; a known name leaves
      the graph as it was. */
  function AddCity(g: Graph, city: string): (r: Graph)
    ensures r.Keys == g.Keys + {city}
    ensures city in g ==> r == g
    ensures city !in g ==> r[city] == []
    ensures forall k :: k in g ==> r[k] == g[k]
    ensures WellFormed(g) ==> WellFormed(r)
  {
    if city in g then g else g[city := []]
  }

  /** addEdge. The duplicate scan reads `adjList[from]`, which inserts `from`
      with an empty list when it is missing; so `from` is always a key
      afterwards and the "from not found" branch of the source never fires.
      A duplicate is an entry with the same target AND the same distance. */
  function AddEdge(g: Graph, from: string, to: string, dist: int): (r: (Graph, Status))
    ensures r.0.Keys == g.Keys + {from}
    ensures forall k :: k in g && k != from ==> r.0[k] == g[k]
    ensures Edge(to, dist) in Neighbours(g, from) ==>
              r.0[from] == Neighbours(g, from) && r.1 == AlreadyExists
    ensures Edge(to, dist) !in Neighbours(g, from) && (to in g || to == from) ==>
              r.0[from] == Neighbours(g, from) + [Edge(to, dist)] && r.1 == Added
    ensures Edge(to, dist) !in Neighbours(g, from) && to !in g && to != from ==>
              r.0[from] == Neighbours(g, from) && r.1 == CityNotFound(to)
    ensures WellFormed(g) ==> WellFormed(r.0)
  {
    var g1 := if from in g then g else g[from := []];
    if Edge(to, dist) in g1[from] then (g1, AlreadyExists)
    else if to !in g1 then (g1, CityNotFound(to))
    else (g1[from := g1[from] + [Edge(to, dist)]], Added)
  }

  /** The entries of `es` that do not target `name`, in their original order. */
  function RemoveTarget(es: seq<Edge>, name: string): (r: seq<Edge>)
    ensures forall e :: e in r <==> e in es && e.to != name
    ensures |r| == CountKept(es, name)
  {
    if |es| == 0 then []
    else if es[0].to == name then RemoveTarget(es[1..], name)
    else [es[0]] + RemoveTarget(es[1..], name)
  }

  /** How many entries of `es` do not target `name`. */
  function CountKept(es: seq<Edge>, name: string): nat {
    if |es| == 0 then 0
    else (if es[0].to == name then 0 else 1) + CountKept(es[1..], name)
  }

  /** `kept` is `es` with the entries targeting `name` dropped and nothing
      else changed: it has as many entries as do not target `name`, and the
      i-th entry of `es`, when it does not target `name`, sits at the
      position given by the number of such entries before it. So the
      survivors keep their relative order and their repetitions. */
  ghost predicate FilteredFrom(kept: seq<Edge>, es: seq<Edge>, name: string) {
    && |kept| == CountKept(es, name)
    && forall i :: 0 <= i < |es| && es[i].to != name ==>
         && CountKept(es[..i], name) < |kept|
         && kept[CountKept(es[..i], name)] == es[i]
  }

  /** deleteCity: every neighbour list loses its entries targeting `name`,
      then `name` itself is erased. An unknown name only has the (absent)
      entries filtered out, so the graph is unchanged apart from that. */
  function DeleteCity(g: Graph, name: string): (r: Graph)
    ensures r.Keys == g.Keys - {name}
    ensures forall k, e :: k in r ==> (e in r[k] <==> e in g[k] && e.to != name)
    ensures forall k, i :: k in r && 0 <= i < |r[k]| ==> r[k][i].to != name
    ensures forall k :: k in r ==> FilteredFrom(r[k], g[k], name)
    ensures WellFormed(g) ==> WellFormed(r)
  {
    var r := map k | k in g && k != name :: RemoveTarget(g[k], name);
    forall k | k in r
      ensures FilteredFrom(r[k], g[k], name)
    {
      RemoveTargetFilters(g[k], name);
    }
    r
  }

  /** deleteEdge: with both cities present, removes every `from -> to` AND
      every `to -> from` entry (the store treats this edge as undirected
      although edges are added one way only); otherwise nothing changes. */
  function DeleteEdge(g: Graph, from: string, to: string): (r: (Graph, Status))
    ensures from !in g || to !in g ==> r.0 == g && r.1 == CityNotFound(if from !in g then from else to)
    ensures from in g && to in g ==> r.1 == Removed && r.0.Keys == g.Keys
    ensures from in g && to in g ==>
              forall e :: e in r.0[from] <==> e in g[from] && e.to != to
    ensures from in g && to in g ==>
              forall e :: e in r.0[to] <==> e in g[to] && e.to != from
    ensures from in g && to in g ==>
              forall k :: k in g && k != from && k != to ==> r.0[k] == g[k]
    ensures from in g && to in g ==> FilteredFrom(r.0[from], g[from], to)
    ensures from in g && to in g ==> FilteredFrom(r.0[to], g[to], from)
    ensures WellFormed(g) ==> WellFormed(r.0)
  {
    if from !in g then (g, CityNotFound(from))
    else if to !in g then (g, CityNotFound(to))
    else
      var g1 := g[from := RemoveTarget(g[from], to)];
      var r := g1[to := RemoveTarget(g1[to], from)];
      DeleteEdgeLists(g, from, to);
      RemoveTargetFilters(g[from], to);
      RemoveTargetFilters(g[to], from);
      (r, Removed)
  }

  /** The two filtered lists of deleteEdge: when `from` and `to` are the same
      city its list is filtered twice, which is the same as once. */
  lemma DeleteEdgeLists(g: Graph, from: string, to: string)
    requires from in g && to in g
    ensures var g1 := g[from := RemoveTarget(g[from], to)];
            var r := g1[to := RemoveTarget(g1[to], from)];
            r[from] == RemoveTarget(g[from], to) && r[to] == RemoveTarget(g[to], from)
  {
    if from == to {
      var once := RemoveTarget(g[from], to);
      RemoveTargetAbsent(once, to);
    }
  }

  /** Removing a target no entry has returns the list unchanged. */
  lemma {:induction false} RemoveTargetAbsent(es: seq<Edge>, name: string)
    requires forall i :: 0 <= i < |es| ==> es[i].to != name
    ensures RemoveTarget(es, name) == es
  {
    if |es| > 0 {
      RemoveTargetAbsent(es[1..], name);
      assert es == [es[0]] + es[1..];
    }
  }

  /** Removing a target distributes over concatenation. */
  lemma {:induction false} RemoveTargetAppend(a: seq<Edge>, b: seq<Edge>, name: string)
    ensures RemoveTarget(a + b, name) == RemoveTarget(a, name) + RemoveTarget(b, name)
  {
    if |a| == 0 {
      assert a + b == b;
    } else {
      var ab := a + b;
      assert ab[0] == a[0] && ab[1..] == a[1..] + b;
      RemoveTargetAppend(a[1..], b, name);
      var rest := RemoveTarget(a[1..], name) + RemoveTarget(b, name);
      if a[0].to == name {
        assert RemoveTarget(ab, name) == rest;
      } else {
        assert RemoveTarget(ab, name) == [a[0]] + rest;
        assert [a[0]] + rest == ([a[0]] + RemoveTarget(a[1..], name)) + RemoveTarget(b, name);
      }
    }
  }

  /** Order preservation: the i-th entry of `es`, when kept, lands in the
      result at the position given by the number of kept entries before it.
      So surviving entries keep their relative order. */
  lemma {:induction false} RemoveTargetPosition(es: seq<Edge>, name: string, i: nat)
    requires i < |es| && es[i].to != name
    ensures CountKept(es[..i], name) < |RemoveTarget(es, name)|
    ensures RemoveTarget(es, name)[CountKept(es[..i], name)] == es[i]
  {
    if i == 0 {
      assert es[..0] == [];
    } else {
      assert es[..i][1..] == es[1..][..i - 1];
      RemoveTargetPosition(es[1..], name, i - 1);
    }
  }

  /** The filter loop of deleteCity and deleteEdge keeps exactly the
      entries not targeting `name`, in order. */
  lemma RemoveTargetFilters(es: seq<Edge>, name: string)
    ensures FilteredFrom(RemoveTarget(es, name), es, name)
  {
    forall i | 0 <= i < |es| && es[i].to != name
      ensures CountKept(es[..i], name) < |RemoveTarget(es, name)|
      ensures RemoveTarget(es, name)[CountKept(es[..i], name)] == es[i]
    {
      RemoveTargetPosition(es, name, i);
    }
  }

  /** deleteCity undoes addCity of a fresh name in a well-formed graph. */
  lemma DeleteCityUndoesAddCity(g: Graph, city: string)
    requires WellFormed(g) && city !in g
    ensures DeleteCity(AddCity(g, city), city) == g
  {
    var r := DeleteCity(AddCity(g, city), city);
    forall k | k in g
      ensures r[k] == g[k]
    {
      RemoveTargetAbsent(g[k], city);
    }
  }

  /** deleteEdge(a, b) after a successful addEdge(a, b, d) restores `a`'s
      neighbour list, provided `a` had no entry towards `b` before. */
  lemma DeleteEdgeUndoesAddEdge(g: Graph, a: string, b: string, d: int)
    requires a in g && b in g
    requires forall i :: 0 <= i < |g[a]| ==> g[a][i].to != b
    ensures DeleteEdge(AddEdge(g, a, b, d).0, a, b).0[a] == g[a]
  {
    var g1 := AddEdge(g, a, b, d).0;
    assert Edge(b, d) !in g[a];
    assert g1[a] == g[a] + [Edge(b, d)];
    assert b in g1;
    var h1 := g1[a := RemoveTarget(g1[a], b)];
    assert DeleteEdge(g1, a, b).0 == h1[b := RemoveTarget(h1[b], a)];
    RemoveTargetAppend(g[a], [Edge(b, d)], b);
    RemoveTargetAbsent(g[a], b);
    assert RemoveTarget([Edge(b, d)], b) == [];
    assert h1[a] == g[a];
    if a == b {
      RemoveTargetAbsent(g[a], a);
    }
  }
}

=== FILE: hops.dfy ===
/** Unweighted adjacency (city -> ordered successor names), hop walks,
    reachability and hop distance. The traversals and the BFS helper class
    are stated against these notions. */
module Hops {
  import opened Graph

  /** An unweighted adjacency map, as held by the BFS helper class. */
  type Adj = map<string, seq<string>>

  /** Successors of `v`; a city without an entry has none (the helper's
      `adjList[current]` default-constructs an empty list). */
  function Succ(adj: Adj, v: string): seq<string> {
    if v in adj then adj[v] else []
  }

  /** The weight-erased view of a city graph: same cities, same target
      order, distances dropped. */
  function View(g: Graph): (r: Adj)
    ensures r.Keys == g.Keys
    ensures forall v :: v in g ==> r[v] == Targets(g[v])
  {
    map v | v in g :: Targets(g[v])
  }

  /** `p` is a non-empty sequence of cities, each a successor of the one before. */
  ghost predicate IsHopWalk(adj: Adj, p: seq<string>) {
    |p| >= 1 && forall i :: 0 <= i < |p| - 1 ==> p[i + 1] in Succ(adj, p[i])
  }

  ghost predicate WalkFromTo(adj: Adj, p: seq<string>, s: string, v: string) {
    IsHopWalk(adj, p) && p[0] == s && p[|p| - 1] == v
  }

  ghost predicate Reaches(adj: Adj, s: string, v: string) {
    exists p :: WalkFromTo(adj, p, s, v)
  }

  /** `n` is the fewest number of hops from `s` to `v`. */
  ghost predicate IsHopDist(adj: Adj, s: string, v: string, n: nat) {
    && (exists p :: WalkFromTo(adj, p, s, v) && |p| == n + 1)
    && (forall p :: WalkFromTo(adj, p, s, v) ==> n + 1 <= |p|)
  }

  /** A walk extended by one successor is a walk. */
  lemma Extend(adj: Adj, p: seq<string>, s: string, v: string, x: string)
    requires WalkFromTo(adj, p, s, v) && x in Succ(adj, v)
    ensures WalkFromTo(adj, p + [x], s, x)
  {
    var q := p + [x];
    forall i | 0 <= i < |q| - 1
      ensures q[i + 1] in Succ(adj, q[i])
    {
      if i < |p| - 1 {
        assert q[i] == p[i] && q[i + 1] == p[i + 1];
      }
    }
  }

  /** Every prefix of a walk is a walk. */
  lemma Prefix(adj: Adj, p: seq<string>, s: string, v: string, n: nat)
    requires WalkFromTo(adj, p, s, v) && 1 <= n <= |p|
    ensures WalkFromTo(adj, p[..n], s, p[n - 1])
  {
  }

  /** Every name the adjacency mentions, plus the start. */
  function Names(adj: Adj, s: string): set<string> {
    {s} + adj.Keys + set k, i | k in adj && 0 <= i < |adj[k]| :: adj[k][i]
  }

  ghost predicate Distinct(s: seq<string>) {
    forall i, j :: 0 <= i < j < |s| ==> s[i] != s[j]
  }

  /** A successor of a city is a name of the adjacency. */
  lemma SuccInNames(adj: Adj, s: string, v: string, x: string)
    requires x in Succ(adj, v)
    ensures x in Names(adj, s)
  {
    var k :| 0 <= k < |Succ(adj, v)| && Succ(adj, v)[k] == x;
    assert v in adj && adj[v][k] == x;
  }

  /** Growing a subset of `all` shrinks what is left of `all`. */
  lemma Shrinks(all: set<string>, a: set<string>, b: set<string>)
    requires a < b <= all
    ensures |all - b| < |all - a|
  {
    var x :| x in b && x !in a;
    var d := b - a;
    assert all - a == (all - b) + d;
    assert (all - b) * d == {};
    assert x in d;
  }

  /** Hop distance is unique. */
  lemma HopDistUnique(adj: Adj, s: string, v: string, n: nat, m: nat)
    requires IsHopDist(adj, s, v, n) && IsHopDist(adj, s, v, m)
    ensures n == m
  {
    var p :| WalkFromTo(adj, p, s, v) && |p| == n + 1;
    var p' :| WalkFromTo(adj, p', s, v) && |p'| == m + 1;
  }

  /** A set that holds `s` and is closed under successors holds every city
      reachable from `s`; `p` is a walk from `s`. */
  lemma {:induction false} ClosedHoldsWalk(adj: Adj, s: string, S: set<string>, p: seq<string>)
    requires s in S && forall v, x :: v in S && x in Succ(adj, v) ==> x in S
    requires IsHopWalk(adj, p) && p[0] == s
    ensures p[|p| - 1] in S
    decreases |p|
  {
    if |p| > 1 {
      var p' := p[..|p| - 1];
      assert IsHopWalk(adj, p');
      ClosedHoldsWalk(adj, s, S, p');
      assert p[|p| - 1] in Succ(adj, p[|p| - 2]);
    }
  }

  /** A set that holds `s` and is closed under successors holds every city
      reachable from `s`. */
  lemma ClosedHoldsReach(adj: Adj, s: string, S: set<string>)
    requires s in S && forall v, x :: v in S && x in Succ(adj, v) ==> x in S
    ensures forall v :: Reaches(adj, s, v) ==> v in S
  {
    forall v | Reaches(adj, s, v)
      ensures v in S
    {
      var p :| WalkFromTo(adj, p, s, v);
      ClosedHoldsWalk(adj, s, S, p);
    }
  }

  /** Appending a new element keeps a sequence repetition-free. */
  lemma DistinctSnoc(s: seq<string>, x: string)
    requires Distinct(s) && x !in s
    ensures Distinct(s + [x])
  {
    var t := s + [x];
    forall i, j | 0 <= i < j < |t|
      ensures t[i] != t[j]
    {
      if j < |s| {
        assert t[i] == s[i] && t[j] == s[j];
      } else {
        assert t[i] == s[i];
      }
    }
  }
}

=== FILE: search.dfy ===
/** What Dijkstra and A* share: weighted walks and their costs, the
    priority-queue entry and its ordering, the search state, the relaxation
    of one city's outgoing edges, predecessor-walk path reconstruction, and
    the invariants and lemmas from which both searches draw their results.

    The source's `INT_MAX` "infinity" is modelled as absence from the `dist`
    map; a city has a distance exactly when it has been discovered. */
module Search {
  import opened Graph
  import Hops

  // ---------------------------------------------------------------------
  // Weighted walks

  /** Sum of a sequence of weights. */
  function Sum(ws: seq<int>): int {
    if |ws| == 0 then 0 else ws[0] + Sum(ws[1..])
  }

  /** Step `i` of `p` follows an edge of weight `ws[i]`. */
  ghost predicate Step(g: Graph, p: seq<string>, ws: seq<int>, i: int)
    requires 0 <= i < |ws| && |ws| < |p|
  {
    p[i] in g && Edge(p[i + 1], ws[i]) in g[p[i]]
  }

  /** `p` walks from `s` to `t` through edges of the graph whose weights,
      in order, are `ws`. (Two cities may be joined by several edges of
      different weights, so the weights are part of the walk.) */
  ghost predicate WalkBetween(g: Graph, p: seq<string>, ws: seq<int>, s: string, t: string) {
    && |p| >= 1 && |ws| == |p| - 1 && p[0] == s && p[|p| - 1] == t
    && forall i {:trigger Step(g, p, ws, i)} :: 0 <= i < |ws| ==> Step(g, p, ws, i)
  }

  ghost predicate Connected(g: Graph, s: string, t: string) {
    exists p, ws :: WalkBetween(g, p, ws, s, t)
  }

  /** No walk from `s` to `t` weighs less than `c`. */
  ghost predicate LowerBound(g: Graph, s: string, t: string, c: int) {
    forall p, ws :: WalkBetween(g, p, ws, s, t) ==> c <= Sum(ws)
  }

  /** `c` is the least weight of a walk from `s` to `t`. */
  ghost predicate IsMinCost(g: Graph, s: string, t: string, c: int) {
    (exists p, ws :: WalkBetween(g, p, ws, s, t) && Sum(ws) == c) && LowerBound(g, s, t, c)
  }

  /** The least cost, when there is one, is unique. */
  lemma MinCostUnique(g: Graph, s: string, t: string, c: int, d: int)
    requires IsMinCost(g, s, t, c) && IsMinCost(g, s, t, d)
    ensures c == d
  {
    var p, ws :| WalkBetween(g, p, ws, s, t) && Sum(ws) == c;
    var q, vs :| WalkBetween(g, q, vs, s, t) && Sum(vs) == d;
  }

  lemma {:induction false} SumSnoc(ws: seq<int>, x: int)
    ensures Sum(ws + [x]) == Sum(ws) + x
  {
    if |ws| > 0 {
      assert (ws + [x])[1..] == ws[1..] + [x];
      SumSnoc(ws[1..], x);
    }
  }

  /** With non-negative weights, a prefix weighs no more than the whole. */
  lemma {:induction false} SumPrefix(ws: seq<int>, j: nat)
    requires j <= |ws| && forall i :: 0 <= i < |ws| ==> ws[i] >= 0
    ensures Sum(ws[..j]) <= Sum(ws)
  {
    if j == 0 {
      SumNonNegative(ws);
    } else {
      assert ws[..j][1..] == ws[1..][..j - 1];
      SumPrefix(ws[1..], j - 1);
    }
  }

  lemma {:induction false} SumNonNegative(ws: seq<int>)
    requires forall i :: 0 <= i < |ws| ==> ws[i] >= 0
    ensures Sum(ws) >= 0
  {
    if |ws| > 0 {
      SumNonNegative(ws[1..]);
    }
  }

  /** Every weight on a walk of a graph without negative edges is non-negative. */
  lemma WalkWeights(g: Graph, p: seq<string>, ws: seq<int>, s: string, t: string)
    requires NonNegative(g) && WalkBetween(g, p, ws, s, t)
    ensures forall i :: 0 <= i < |ws| ==> ws[i] >= 0
  {
    forall i | 0 <= i < |ws|
      ensures ws[i] >= 0
    {
      assert Step(g, p, ws, i);
      var k :| 0 <= k < |g[p[i]]| && g[p[i]][k] == Edge(p[i + 1], ws[i]);
    }
  }

  /** The weight of some edge from `u` to `v`. */
  ghost function EdgeWeight(g: Graph, u: string, v: string): (d: int)
    requires u in g && v in Targets(g[u])
    ensures Edge(v, d) in g[u]
  {
    var j :| 0 <= j < |g[u]| && Targets(g[u])[j] == v;
    g[u][j].dist
  }

  /** A city is reachable by hops in the weight-erased graph (what the
      traversals and the BFS helper explore) exactly when a weighted walk
      leads there (what Dijkstra and A* search for). */
  lemma ViewConnected(g: Graph, s: string, t: string)
    ensures Hops.Reaches(Hops.View(g), s, t) <==> Connected(g, s, t)
  {
    var adj := Hops.View(g);
    if Hops.Reaches(adj, s, t) {
      var p :| Hops.WalkFromTo(adj, p, s, t);
      var ws := seq(|p| - 1, i requires 0 <= i < |p| - 1 =>
                  if p[i] in g && p[i + 1] in Targets(g[p[i]]) then EdgeWeight(g, p[i], p[i + 1]) else 0);
      forall i | 0 <= i < |ws|
        ensures Step(g, p, ws, i)
      {
        assert p[i + 1] in Hops.Succ(adj, p[i]);
      }
      assert WalkBetween(g, p, ws, s, t);
    }
    if Connected(g, s, t) {
      var p, ws :| WalkBetween(g, p, ws, s, t);
      forall i | 0 <= i < |p| - 1
        ensures p[i + 1] in Hops.Succ(adj, p[i])
      {
        assert Step(g, p, ws, i);
        var k :| 0 <= k < |g[p[i]]| && g[p[i]][k] == Edge(p[i + 1], ws[i]);
        assert Targets(g[p[i]])[k] == p[i + 1];
      }
      assert Hops.WalkFromTo(adj, p, s, t);
    }
  }

  // ---------------------------------------------------------------------
  // Priority-queue entries

  /** A queue entry: the priority (distance for Dijkstra, distance plus
      heuristic for A*) and the city. */
  datatype Entry = Entry(pri: nat, city: string)

  /** Lexicographic order on names, as `std::string` compares them. */
  predicate StrLe(a: string, b: string)
    decreases |a|
  {
    |a| == 0 || (|b| > 0 && (a[0] < b[0] || (a[0] == b[0] && StrLe(a[1..], b[1..]))))
  }

  /** The queue is a min-heap of (priority, name) pairs: smaller priority
      first, ties broken by the smaller name. */
  predicate EntryLe(x: Entry, y: Entry) {
    x.pri < y.pri || (x.pri == y.pri && StrLe(x.city, y.city))
  }

  lemma {:induction false} StrLeTotal(a: string, b: string)
    ensures StrLe(a, b) || StrLe(b, a)
    decreases |a|
  {
    if |a| > 0 && |b| > 0 && a[0] == b[0] {
      StrLeTotal(a[1..], b[1..]);
    }
  }

  lemma {:induction false} StrLeTrans(a: string, b: string, c: string)
    requires StrLe(a, b) && StrLe(b, c)
    ensures StrLe(a, c)
    decreases |a|
  {
    if |a| > 0 && a[0] == b[0] && b[0] == c[0] {
      StrLeTrans(a[1..], b[1..], c[1..]);
    }
  }

  lemma EntryLeTotal(x: Entry, y: Entry)
    ensures EntryLe(x, y) || EntryLe(y, x)
  {
    StrLeTotal(x.city, y.city);
  }

  lemma EntryLeTrans(x: Entry, y: Entry, z: Entry)
    requires EntryLe(x, y) && EntryLe(y, z)
    ensures EntryLe(x, z)
  {
    if x.pri == y.pri && y.pri == z.pri {
      StrLeTrans(x.city, y.city, z.city);
    }
  }

  /** A non-empty queue has an entry that comes first. */
  lemma {:induction false} MinExists(pq: multiset<Entry>)
    requires |pq| > 0
    ensures exists e :: e in pq && forall x :: x in pq ==> EntryLe(e, x)
    decreases |pq|
  {
    var y :| y in pq;
    var rest := pq - multiset{y};
    EntryLeTotal(y, y);
    if |rest| == 0 {
      assert pq == rest + multiset{y};
      assert rest == multiset{};
    } else {
      MinExists(rest);
      var m :| m in rest && forall x :: x in rest ==> EntryLe(m, x);
      EntryLeTotal(y, m);
      var e := if EntryLe(y, m) then y else m;
      forall x | x in pq
        ensures EntryLe(e, x)
      {
        if x != y {
          assert x in rest;
          if e == y {
            EntryLeTrans(y, m, x);
          }
        }
      }
      assert e in pq;
    }
  }

  /** `pq.top()` then `pq.pop()`: the first entry in queue order, and the
      queue without one copy of it. */
  method PopMin(pq: multiset<Entry>) returns (e: Entry, rest: multiset<Entry>)
    requires |pq| > 0
    ensures e in pq && rest == pq - multiset{e} && |rest| < |pq|
    ensures forall x :: x in pq ==> EntryLe(e, x)
  {
    MinExists(pq);
    e :| e in pq && forall x :: x in pq ==> EntryLe(e, x);
    rest := pq - multiset{e};
  }

  // ---------------------------------------------------------------------
  // Sum of a distance map, for termination

  ghost function Pick(m: map<string, nat>): string
    requires m.Keys != {}
  {
    var k :| k in m; k
  }

  ghost function SumValues(m: map<string, nat>): nat
    decreases |m.Keys|
  {
    if m.Keys == {} then 0
    else
      var k := Pick(m);
      assert m.Keys == (m - {k}).Keys + {k};
      m[k] + SumValues(m - {k})
  }

  lemma {:induction false} SumValuesAt(m: map<string, nat>, k: string)
    requires k in m
    ensures SumValues(m) == m[k] + SumValues(m - {k})
    decreases |m.Keys|
  {
    var j := Pick(m);
    if j != k {
      assert m.Keys == (m - {j}).Keys + {j};
      assert m.Keys == (m - {k}).Keys + {k};
      SumValuesAt(m - {j}, k);
      SumValuesAt(m - {k}, j);
      assert m - {j} - {k} == m - {k} - {j};
    }
  }

  /** Lowering one distance lowers the sum. */
  lemma SumValuesLower(m: map<string, nat>, k: string, x: nat)
    requires k in m && x < m[k]
    ensures SumValues(m[k := x]) < SumValues(m)
  {
    SumValuesAt(m, k);
    SumValuesAt(m[k := x], k);
    assert m[k := x] - {k} == m - {k};
  }

  /** `d1` is strictly further along than `d0`: it knows more cities, or the
      same cities with a smaller total. */
  ghost predicate Ahead(d0: map<string, nat>, d1: map<string, nat>) {
    d0.Keys < d1.Keys || (d0.Keys == d1.Keys && SumValues(d1) < SumValues(d0))
  }

  /** Being ahead, within a fixed set of cities, lowers the search measure. */
  lemma AheadMeasure(cities: set<string>, d0: map<string, nat>, d1: map<string, nat>)
    requires Ahead(d0, d1) && d1.Keys <= cities
    ensures || |cities - d1.Keys| < |cities - d0.Keys|
            || (|cities - d1.Keys| == |cities - d0.Keys| && SumValues(d1) < SumValues(d0))
  {
    if d0.Keys < d1.Keys {
      Hops.Shrinks(cities, d0.Keys, d1.Keys);
    }
  }

  // ---------------------------------------------------------------------
  // Search state and relaxation

  /** What the search loop holds: tentative distances (`distances` in
      Dijkstra, `gScore` in A*), recorded predecessors (`previous`,
      `cameFrom`) and the queue. */
  datatype State = State(dist: map<string, nat>, prev: map<string, string>, pq: multiset<Entry>)

  /** Proof-only bookkeeping: the weight of the edge through which each
      predecessor was recorded, the time of each city's last improvement,
      the clock, and the cities whose edges have been relaxed at their
      current distance. */
  datatype Book = Book(via: map<string, int>, stamp: map<string, nat>, clock: nat, settled: set<string>)

  /** Relaxing `e` out of `u` improves its target: the target is still at
      infinity, or the route through `u` is strictly shorter. */
  predicate Improves(st: State, u: string, e: Edge)
    requires u in st.dist
  {
    e.to !in st.dist || st.dist[u] + e.dist < st.dist[e.to]
  }

  /** One step of the relaxation loop (`newDist < distances[neighbor]`):
      on improvement the target gets the new distance, `u` as predecessor,
      and a queue entry with priority `distance + hv`. Afterwards the edge
      is tight, and no distance has grown. */
  function Improve(st: State, u: string, e: Edge, hv: nat): (r: State)
    requires u in st.dist && e.dist >= 0
    ensures r.dist.Keys == st.dist.Keys + {e.to}
    ensures e.to in r.dist && r.dist[e.to] <= st.dist[u] + e.dist
    ensures forall v :: v in st.dist ==> r.dist[v] <= st.dist[v]
    ensures forall v :: v in st.dist && v != e.to ==> r.dist[v] == st.dist[v]
    ensures r.dist[u] == st.dist[u]
    ensures Improves(st, u, e) ==>
              && r.dist[e.to] == st.dist[u] + e.dist && r.prev == st.prev[e.to := u]
              && r.pq == st.pq + multiset{Entry(r.dist[e.to] + hv, e.to)}
    ensures !Improves(st, u, e) ==> r == st
  {
    var nd := st.dist[u] + e.dist;
    if e.to !in st.dist || nd < st.dist[e.to] then
      State(st.dist[e.to := nd], st.prev[e.to := u], st.pq + multiset{Entry(nd + hv, e.to)})
    else st
  }

  /** The bookkeeping that goes with `Improve`. */
  ghost function Note(bk: Book, st: State, u: string, e: Edge): Book
    requires u in st.dist
  {
    if Improves(st, u, e) then
      Book(bk.via[e.to := e.dist], bk.stamp[e.to := bk.clock], bk.clock + 1, bk.settled - {e.to})
    else bk
  }

  // ---------------------------------------------------------------------
  // Invariants

  /** `v`'s predecessor has a distance, is joined to `v` by an edge of
      weight `via[v]`, is at most that much closer, and ranks strictly
      below `v` by (distance, time of last improvement). */
  ghost predicate Linked(g: Graph, dist: map<string, nat>, prev: map<string, string>,
                         via: map<string, int>, stamp: map<string, nat>, v: string)
  {
    && v in dist && v in prev && v in via && v in stamp
    && prev[v] in dist && prev[v] in stamp && prev[v] in g
    && Edge(v, via[v]) in g[prev[v]] && via[v] >= 0
    && dist[prev[v]] + via[v] <= dist[v]
    && (dist[prev[v]] < dist[v] || stamp[prev[v]] < stamp[v])
  }

  /** The predecessors form a tree rooted at the start, at distance 0. */
  ghost predicate Tree(g: Graph, start: string, st: State, bk: Book) {
    && start in st.dist && st.dist[start] == 0
    && bk.stamp.Keys == st.dist.Keys
    && (forall v :: v in bk.stamp ==> bk.stamp[v] < bk.clock)
    && (forall v {:trigger Linked(g, st.dist, st.prev, bk.via, bk.stamp, v)} ::
          v in st.dist && v != start ==> Linked(g, st.dist, st.prev, bk.via, bk.stamp, v))
  }

  /** Edge `i` of `u` is relaxed: its target is no further than through `u`. */
  ghost predicate Covers(g: Graph, dist: map<string, nat>, u: string, i: int) {
    && u in g && 0 <= i < |g[u]| && u in dist && g[u][i].to in dist
    && dist[g[u][i].to] <= dist[u] + g[u][i].dist
  }

  /** Every edge of `u` is relaxed at `u`'s current distance. */
  ghost predicate Expanded(g: Graph, dist: map<string, nat>, u: string) {
    u in g && u in dist && forall i {:trigger Covers(g, dist, u, i)} :: 0 <= i < |g[u]| ==> Covers(g, dist, u, i)
  }

  ghost predicate Settled(g: Graph, dist: map<string, nat>, done: set<string>) {
    done <= dist.Keys && forall u {:trigger Expanded(g, dist, u)} :: u in done ==> Expanded(g, dist, u)
  }

  /** The queue holds an entry for `v` at its current distance. */
  ghost predicate Queued(st: State, h: (string, string) -> nat, goal: string, v: string) {
    v in st.dist && Entry(st.dist[v] + h(v, goal), v) in st.pq
  }

  /** Every discovered city outside `done` is waiting in the queue. */
  ghost predicate Pending(st: State, h: (string, string) -> nat, goal: string, done: set<string>) {
    forall v {:trigger Queued(st, h, goal, v)} :: v in st.dist && v !in done ==> Queued(st, h, goal, v)
  }

  /** No entry's priority is below its city's current priority; older
      entries are stale, never optimistic. */
  ghost predicate Fresh(st: State, h: (string, string) -> nat, goal: string) {
    forall e :: e in st.pq ==> e.city in st.dist && st.dist[e.city] + h(e.city, goal) <= e.pri
  }

  ghost predicate Core(g: Graph, start: string, goal: string, h: (string, string) -> nat, st: State, bk: Book) {
    && Tree(g, start, st, bk) && st.dist.Keys <= g.Keys
    && Settled(g, st.dist, bk.settled) && goal !in bk.settled && Fresh(st, h, goal)
  }

  /** The loop invariant of both searches. */
  ghost predicate Inv(g: Graph, start: string, goal: string, h: (string, string) -> nat, st: State, bk: Book) {
    Core(g, start, goal, h, st, bk) && Pending(st, h, goal, bk.settled)
  }

  /** The invariant while `u`'s edges are being relaxed. */
  ghost predicate Working(g: Graph, start: string, goal: string, h: (string, string) -> nat,
                          st: State, bk: Book, u: string)
  {
    && Core(g, start, goal, h, st, bk) && Pending(st, h, goal, bk.settled + {u})
    && u in st.dist && u in g && u !in bk.settled && u != goal
  }

  /** Lowering distances keeps every settled city but the lowered one settled. */
  lemma SettledDown(g: Graph, d0: map<string, nat>, d1: map<string, nat>, done: set<string>, v: string)
    requires Settled(g, d0, done) && d0.Keys <= d1.Keys
    requires forall x :: x in d0 ==> d1[x] <= d0[x]
    requires forall x :: x in d0 && x != v ==> d1[x] == d0[x]
    ensures Settled(g, d1, done - {v})
  {
    forall u | u in done - {v}
      ensures Expanded(g, d1, u)
    {
      assert Expanded(g, d0, u);
      forall i | 0 <= i < |g[u]|
        ensures Covers(g, d1, u, i)
      {
        assert Covers(g, d0, u, i);
      }
    }
  }

  /** An improvement keeps the predecessor tree. */
  lemma TreeKeeps(g: Graph, start: string, st: State, bk: Book, u: string, e: Edge, hv: nat)
    requires Tree(g, start, st, bk) && u in st.dist && u in g && e in g[u] && e.dist >= 0
    ensures Tree(g, start, Improve(st, u, e, hv), Note(bk, st, u, e))
  {
    if Improves(st, u, e) {
      var st' := Improve(st, u, e, hv);
      var bk' := Note(bk, st, u, e);
      assert e.to != start && e.to != u;
      forall v | v in st'.dist && v != start
        ensures Linked(g, st'.dist, st'.prev, bk'.via, bk'.stamp, v)
      {
        if v != e.to {
          assert Linked(g, st.dist, st.prev, bk.via, bk.stamp, v);
        }
      }
    }
  }

  /** Relaxing edge `i` of `u` keeps the working invariant, leaves that edge
      relaxed, and either changes nothing or moves the search ahead. */
  lemma ImproveKeeps(g: Graph, start: string, goal: string, h: (string, string) -> nat,
                     st: State, bk: Book, u: string, i: int)
    requires NonNegative(g) && Working(g, start, goal, h, st, bk, u) && 0 <= i < |g[u]|
    requires g[u][i].to in g
    ensures Working(g, start, goal, h, Improve(st, u, g[u][i], h(g[u][i].to, goal)), Note(bk, st, u, g[u][i]), u)
    ensures Covers(g, Improve(st, u, g[u][i], h(g[u][i].to, goal)).dist, u, i)
    ensures var st' := Improve(st, u, g[u][i], h(g[u][i].to, goal));
            st' == st || Ahead(st.dist, st'.dist)
  {
    var e := g[u][i];
    var st' := Improve(st, u, e, h(e.to, goal));
    var bk' := Note(bk, st, u, e);
    assert e in g[u];
    TreeKeeps(g, start, st, bk, u, e, h(e.to, goal));
    if Improves(st, u, e) {
      SettledDown(g, st.dist, st'.dist, bk.settled, e.to);
      forall v | v in st'.dist && v !in bk'.settled + {u}
        ensures Queued(st', h, goal, v)
      {
        if v != e.to {
          assert Queued(st, h, goal, v);
        }
      }
      if e.to in st.dist {
        SumValuesLower(st.dist, e.to, st'.dist[e.to]);
        assert st'.dist == st.dist[e.to := st'.dist[e.to]];
      }
    }
  }

  /** The neighbour loop of both searches (`for (neighbor, dist) :
      adjList.at(current)`): relaxes every edge of `u` in list order. After
      it `u` is settled at its distance, which the loop leaves unchanged. */
  method Relax(g: Graph, start: string, goal: string, h: (string, string) -> nat,
               st: State, ghost bk: Book, u: string)
    returns (st': State, ghost bk': Book)
    requires WellFormed(g) && NonNegative(g) && Working(g, start, goal, h, st, bk, u)
    ensures Inv(g, start, goal, h, st', bk') && u in bk'.settled
    ensures u in st'.dist && st'.dist[u] == st.dist[u]
    ensures forall v :: v in st.dist ==> v in st'.dist && st'.dist[v] <= st.dist[v]
    ensures forall i :: 0 <= i < |g[u]| ==> g[u][i].to in st'.dist && st'.dist[g[u][i].to] <= st'.dist[u] + g[u][i].dist
    ensures st' == st || Ahead(st.dist, st'.dist)
  {
    st', bk' := st, bk;
    var es := g[u];
    var i := 0;
    while i < |es|
      invariant 0 <= i <= |es|
      invariant Working(g, start, goal, h, st', bk', u) && st'.dist[u] == st.dist[u]
      invariant forall v :: v in st.dist ==> v in st'.dist && st'.dist[v] <= st.dist[v]
      invariant forall k {:trigger Covers(g, st'.dist, u, k)} :: 0 <= k < i ==> Covers(g, st'.dist, u, k)
      invariant st' == st || Ahead(st.dist, st'.dist)
    {
      assert es[i] in g[u];
      ImproveKeeps(g, start, goal, h, st', bk', u, i);
      var next := Improve(st', u, es[i], h(es[i].to, goal));
      forall k | 0 <= k < i
        ensures Covers(g, next.dist, u, k)
      {
        assert Covers(g, st'.dist, u, k);
      }
      if next != st' && st' != st {
        AheadTrans(st.dist, st'.dist, next.dist);
      }
      bk' := Note(bk', st', u, es[i]);
      st' := next;
      i := i + 1;
    }
    bk' := bk'.(settled := bk'.settled + {u});
    forall i | 0 <= i < |g[u]|
      ensures g[u][i].to in st'.dist && st'.dist[g[u][i].to] <= st'.dist[u] + g[u][i].dist
    {
      assert Covers(g, st'.dist, u, i);
    }
    assert Expanded(g, st'.dist, u);
  }

  lemma AheadTrans(a: map<string, nat>, b: map<string, nat>, c: map<string, nat>)
    requires Ahead(a, b) && Ahead(b, c)
    ensures Ahead(a, c)
  {
  }

  /** The state after `distances[start] = 0; pq.push({h, start})`. */
  lemma Initial(g: Graph, start: string, goal: string, h: (string, string) -> nat)
    requires start in g
    ensures Inv(g, start, goal, h, State(map[start := 0], map[], multiset{Entry(h(start, goal), start)}),
                Book(map[], map[start := 0], 1, {}))
  {
    var st := State(map[start := 0], map[], multiset{Entry(h(start, goal), start)});
    assert Queued(st, h, goal, start);
  }

  // ---------------------------------------------------------------------
  // What the invariant says about walks

  /** Along any walk from the start, the first city not yet settled (or the
      walk's end, if every city up to it is settled) has a distance no
      greater than the walk's weight up to it. */
  ghost predicate Reached(dist: map<string, nat>, done: set<string>, p: seq<string>, ws: seq<int>, j: int, k: int)
    requires 0 <= j <= k < |p| && |ws| == |p| - 1
  {
    p[j] in dist && dist[p[j]] <= Sum(ws[..j]) && (p[j] !in done || j == k)
  }

  lemma {:induction false} Frontier(g: Graph, start: string, dist: map<string, nat>, done: set<string>,
                                    p: seq<string>, ws: seq<int>, t: string, k: int)
    requires start in dist && dist[start] == 0 && Settled(g, dist, done)
    requires WalkBetween(g, p, ws, start, t) && 0 <= k < |p|
    ensures exists j :: 0 <= j <= k && Reached(dist, done, p, ws, j, k)
  {
    if k == 0 {
      assert Reached(dist, done, p, ws, 0, 0);
    } else {
      Frontier(g, start, dist, done, p, ws, t, k - 1);
      var j :| 0 <= j <= k - 1 && Reached(dist, done, p, ws, j, k - 1);
      if p[j] !in done {
        assert Reached(dist, done, p, ws, j, k);
      } else {
        var u := p[k - 1];
        assert Expanded(g, dist, u);
        assert Step(g, p, ws, k - 1);
        var i :| 0 <= i < |g[u]| && g[u][i] == Edge(p[k], ws[k - 1]);
        assert Covers(g, dist, u, i);
        assert ws[..k] == ws[..k - 1] + [ws[k - 1]];
        SumSnoc(ws[..k - 1], ws[k - 1]);
        assert Reached(dist, done, p, ws, k, k);
      }
    }
  }

  /** Popping the first queue entry for `t` when every priority is a
      distance (zero heuristic): `t`'s distance is the least weight of any
      walk to it. */
  lemma PopIsOptimal(g: Graph, start: string, goal: string, h: (string, string) -> nat,
                     st: State, bk: Book, e: Entry)
    requires NonNegative(g) && Inv(g, start, goal, h, st, bk)
    requires forall v :: h(v, goal) == 0
    requires e in st.pq && forall x :: x in st.pq ==> EntryLe(e, x)
    ensures e.city in st.dist && LowerBound(g, start, e.city, st.dist[e.city])
  {
    var t := e.city;
    forall p, ws | WalkBetween(g, p, ws, start, t)
      ensures st.dist[t] <= Sum(ws)
    {
      Frontier(g, start, st.dist, bk.settled, p, ws, t, |p| - 1);
      var j :| 0 <= j <= |p| - 1 && Reached(st.dist, bk.settled, p, ws, j, |p| - 1);
      WalkWeights(g, p, ws, start, t);
      SumPrefix(ws, j);
      if p[j] !in bk.settled {
        assert Queued(st, h, goal, p[j]);
        assert EntryLe(e, Entry(st.dist[p[j]] + h(p[j], goal), p[j]));
      } else {
        assert ws[..j] == ws;
      }
    }
  }

  /** Only settled cities may be missing from an empty queue. */
  lemma EmptyQueueSettled(st: State, h: (string, string) -> nat, goal: string, done: set<string>)
    requires Pending(st, h, goal, done)
    ensures |st.pq| == 0 ==> st.dist.Keys <= done
  {
    forall v | v in st.dist && v !in done
      ensures |st.pq| > 0
    {
      assert Queued(st, h, goal, v);
    }
  }

  /** An empty queue: every discovered city is settled, so each city a walk
      from the start reaches has a distance, no greater than the walk's
      weight. */
  lemma ExhaustedBound(g: Graph, start: string, goal: string, h: (string, string) -> nat,
                       st: State, bk: Book, p: seq<string>, ws: seq<int>, t: string)
    requires Inv(g, start, goal, h, st, bk) && st.pq == multiset{}
    requires WalkBetween(g, p, ws, start, t)
    ensures t in st.dist && st.dist[t] <= Sum(ws)
  {
    Frontier(g, start, st.dist, bk.settled, p, ws, t, |p| - 1);
    var j :| 0 <= j <= |p| - 1 && Reached(st.dist, bk.settled, p, ws, j, |p| - 1);
    EmptyQueueSettled(st, h, goal, bk.settled);
    assert ws[..j] == ws;
  }

  /** An empty queue means the goal is unreachable: the goal is never
      settled, so it was never discovered, and every reachable city was. */
  lemma Exhausted(g: Graph, start: string, goal: string, h: (string, string) -> nat, st: State, bk: Book)
    requires Inv(g, start, goal, h, st, bk) && st.pq == multiset{}
    ensures goal !in st.dist && !Connected(g, start, goal)
  {
    EmptyQueueSettled(st, h, goal, bk.settled);
    forall p, ws | WalkBetween(g, p, ws, start, goal)
      ensures goal in st.dist
    {
      ExhaustedBound(g, start, goal, h, st, bk, p, ws, goal);
    }
  }

  // ---------------------------------------------------------------------
  // Path reconstruction

  /** `a` ranks strictly below `b`: a smaller distance, or the same distance
      and an earlier last improvement. */
  ghost predicate Below(dist: map<string, nat>, stamp: map<string, nat>, a: string, b: string)
    requires a in dist && b in dist && a in stamp && b in stamp
  {
    dist[a] < dist[b] || (dist[a] == dist[b] && stamp[a] < stamp[b])
  }

  /** `reconstructPath` (identical in Dijkstra and A*): follows recorded
      predecessors from `end` back to `start`. The source pushes cities
      onto a vector and reverses it; prepending here builds the same
      sequence. The result is a walk from `start` to `end` through graph
      edges weighing no more than `end`'s distance, and just `[start]` when
      the two coincide. */
  method ReconstructPath(prev: map<string, string>, start: string, end: string,
                         ghost g: Graph, ghost st: State, ghost bk: Book)
    returns (path: seq<string>, ghost ws: seq<int>)
    requires st.prev == prev && Tree(g, start, st, bk) && end in st.dist
    ensures WalkBetween(g, path, ws, start, end) && Sum(ws) <= st.dist[end]
    ensures start == end ==> path == [start]
  {
    path, ws := [end], [];
    var current := end;
    assert end in bk.stamp;
    while current != start
      invariant current in st.dist && current in bk.stamp
      invariant WalkBetween(g, path, ws, current, end)
      invariant st.dist[current] + Sum(ws) <= st.dist[end]
      invariant path == [end] || Below(st.dist, bk.stamp, current, end)
      decreases st.dist[current], bk.stamp[current]
    {
      assert Linked(g, st.dist, st.prev, bk.via, bk.stamp, current);
      assert Below(st.dist, bk.stamp, prev[current], current);
      var before := prev[current];
      var path', ws' := [before] + path, [bk.via[current]] + ws;
      forall i | 0 <= i < |ws'|
        ensures Step(g, path', ws', i)
      {
        if i > 0 {
          assert Step(g, path, ws, i - 1);
        }
      }
      path, ws := path', ws';
      current := before;
    }
  }
}

=== FILE: traversal.dfy ===
/** The two traversals of the city graph offered by the traversal menu.
    Each prints the cities in visit order; here that order is the result.
    Both look neighbour lists up with a throwing accessor, so they are
    stated for well-formed graphs (every edge target is a city), the
    invariant the graph store keeps. */
module Traversal {
  import opened Wrappers
  import opened Graph
  import opened Hops
  import Bfs

  /** What the DFS pushes after visiting a city with successor list `nbrs`:
      the successors not yet visited, taken from the back of the list, so the
      first successor ends up on top of the stack (the end of the sequence). */
  function Pushed(nbrs: seq<string>, visited: set<string>): (r: seq<string>)
    ensures forall x :: x in r <==> x in nbrs && x !in visited
    ensures |nbrs| > 0 && nbrs[0] !in visited ==> |r| > 0 && r[|r| - 1] == nbrs[0]
  {
    if |nbrs| == 0 then []
    else
      assert forall x :: x in nbrs <==> x == nbrs[0] || x in nbrs[1..];
      Pushed(nbrs[1..], visited) + (if nbrs[0] !in visited then [nbrs[0]] else [])
  }

  /** Every successor of `v` is visited or waiting on the stack. */
  ghost predicate Covered(adj: Adj, visited: set<string>, stack: seq<string>, v: string) {
    forall x :: x in Succ(adj, v) ==> x in visited || x in stack
  }

  /** The depth-first rule at position `i`: when the first successor of
      `order[i]` had not been visited by then, it is visited right next. */
  ghost predicate FirstRule(adj: Adj, order: seq<string>, i: int) {
    0 <= i < |order| - 1 &&
    (|Succ(adj, order[i])| > 0 && Succ(adj, order[i])[0] !in order[..i + 1] ==>
       order[i + 1] == Succ(adj, order[i])[0])
  }

  /** The first successor of the last visited city, if still unvisited, is on
      top of the stack. */
  ghost predicate Pending(adj: Adj, visited: set<string>, order: seq<string>, stack: seq<string>) {
    (|order| > 0 && |Succ(adj, order[|order| - 1])| > 0 && Succ(adj, order[|order| - 1])[0] !in visited)
      ==> |stack| > 0 && stack[|stack| - 1] == Succ(adj, order[|order| - 1])[0]
  }

  /** Every city on the stack is reachable from the start and is a name of the adjacency. */
  ghost predicate StackSound(adj: Adj, start: string, stack: seq<string>) {
    forall i :: 0 <= i < |stack| ==> Reaches(adj, start, stack[i]) && stack[i] in Names(adj, start)
  }

  /** The DFS loop invariant. */
  ghost predicate DfsInv(adj: Adj, start: string, visited: set<string>, order: seq<string>, stack: seq<string>) {
    && (|order| == 0 ==> stack == [start] && visited == {})
    && (|order| > 0 ==> order[0] == start)
    && (forall v :: v in visited <==> v in order)
    && Distinct(order)
    && (forall v {:trigger Covered(adj, visited, stack, v)} :: v in visited ==> Covered(adj, visited, stack, v))
    && (forall v :: v in visited ==> Reaches(adj, start, v))
    && StackSound(adj, start, stack)
    && visited <= Names(adj, start)
    && (forall i {:trigger FirstRule(adj, order, i)} :: 0 <= i < |order| - 1 ==> FirstRule(adj, order, i))
    && Pending(adj, visited, order, stack)
  }

  /** Popping a city that is already visited keeps the invariant. */
  lemma SkipKeeps(adj: Adj, start: string, visited: set<string>, order: seq<string>, stack: seq<string>)
    requires DfsInv(adj, start, visited, order, stack)
    requires |stack| > 0 && stack[|stack| - 1] in visited
    ensures DfsInv(adj, start, visited, order, stack[..|stack| - 1])
  {
    var top, rest := stack[|stack| - 1], stack[..|stack| - 1];
    assert stack == rest + [top];
    forall v | v in visited
      ensures Covered(adj, visited, rest, v)
    {
      assert Covered(adj, visited, stack, v);
    }
    forall i | 0 <= i < |rest|
      ensures Reaches(adj, start, rest[i]) && rest[i] in Names(adj, start)
    {
      assert rest[i] == stack[i];
    }
  }

  /** Visiting `top` covers every visited city against the new stack. */
  lemma VisitKeepsCover(adj: Adj, visited: set<string>, stack: seq<string>, top: string)
    requires forall v {:trigger Covered(adj, visited, stack, v)} :: v in visited ==> Covered(adj, visited, stack, v)
    requires |stack| > 0 && stack[|stack| - 1] == top
    ensures forall v {:trigger Covered(adj, visited + {top}, stack[..|stack| - 1] + Pushed(Succ(adj, top), visited + {top}), v)} ::
              v in visited + {top} ==>
              Covered(adj, visited + {top}, stack[..|stack| - 1] + Pushed(Succ(adj, top), visited + {top}), v)
  {
    var rest := stack[..|stack| - 1];
    var visited' := visited + {top};
    var stack' := rest + Pushed(Succ(adj, top), visited');
    assert stack == rest + [top];
    forall v | v in visited'
      ensures Covered(adj, visited', stack', v)
    {
      if v in visited {
        assert Covered(adj, visited, stack, v);
      }
    }
  }

  /** Visiting `top`, which was reachable, keeps every visited and stacked
      city reachable and within the names. */
  lemma VisitKeepsSound(adj: Adj, start: string, visited: set<string>, stack: seq<string>, top: string)
    requires forall v :: v in visited ==> Reaches(adj, start, v)
    requires StackSound(adj, start, stack) && visited <= Names(adj, start)
    requires |stack| > 0 && stack[|stack| - 1] == top
    ensures forall v :: v in visited + {top} ==> Reaches(adj, start, v)
    ensures visited + {top} <= Names(adj, start)
    ensures StackSound(adj, start, stack[..|stack| - 1] + Pushed(Succ(adj, top), visited + {top}))
  {
    var rest := stack[..|stack| - 1];
    var pushed := Pushed(Succ(adj, top), visited + {top});
    var stack' := rest + pushed;
    assert Reaches(adj, start, stack[|stack| - 1]) && top in Names(adj, start);
    var w :| WalkFromTo(adj, w, start, top);
    forall i | 0 <= i < |stack'|
      ensures Reaches(adj, start, stack'[i]) && stack'[i] in Names(adj, start)
    {
      if i < |rest| {
        assert stack'[i] == stack[i];
      } else {
        var x := stack'[i];
        assert x == pushed[i - |rest|];
        assert x in Succ(adj, top);
        Extend(adj, w, start, top, x);
        SuccInNames(adj, start, top, x);
      }
    }
  }

  /** Visiting `top` keeps the depth-first rule and the pending first successor. */
  lemma VisitKeepsOrder(adj: Adj, visited: set<string>, order: seq<string>, stack: seq<string>, top: string)
    requires forall v :: v in visited <==> v in order
    requires forall i {:trigger FirstRule(adj, order, i)} :: 0 <= i < |order| - 1 ==> FirstRule(adj, order, i)
    requires Pending(adj, visited, order, stack)
    requires |stack| > 0 && stack[|stack| - 1] == top && top !in visited
    ensures forall i {:trigger FirstRule(adj, order + [top], i)} :: 0 <= i < |order| ==> FirstRule(adj, order + [top], i)
    ensures Pending(adj, visited + {top}, order + [top],
                    stack[..|stack| - 1] + Pushed(Succ(adj, top), visited + {top}))
  {
    var order' := order + [top];
    forall i | 0 <= i < |order|
      ensures FirstRule(adj, order', i)
    {
      assert order'[..i + 1] == order[..i + 1];
      if i < |order| - 1 {
        assert FirstRule(adj, order, i);
      } else {
        assert order[..i + 1] == order;
      }
    }
  }

  /** Visiting the popped city `top` (not yet visited) keeps the invariant. */
  lemma VisitKeeps(adj: Adj, start: string, visited: set<string>, order: seq<string>, stack: seq<string>)
    requires DfsInv(adj, start, visited, order, stack)
    requires |stack| > 0 && stack[|stack| - 1] !in visited
    ensures DfsInv(adj, start, visited + {stack[|stack| - 1]}, order + [stack[|stack| - 1]],
                   stack[..|stack| - 1] + Pushed(Succ(adj, stack[|stack| - 1]), visited + {stack[|stack| - 1]}))
  {
    var top := stack[|stack| - 1];
    VisitKeepsCover(adj, visited, stack, top);
    VisitKeepsSound(adj, start, visited, stack, top);
    VisitKeepsOrder(adj, visited, order, stack, top);
    DistinctSnoc(order, top);
  }

  /** One pass of the DFS loop: pop the top city; visit it if it is new. */
  method DfsStep(adj: Adj, start: string, visited: set<string>, order: seq<string>, stack: seq<string>)
    returns (visited': set<string>, order': seq<string>, stack': seq<string>)
    requires DfsInv(adj, start, visited, order, stack) && |stack| > 0
    ensures DfsInv(adj, start, visited', order', stack')
    ensures |Names(adj, start) - visited'| < |Names(adj, start) - visited|
            || (visited' == visited && |stack'| < |stack|)
  {
    var current := stack[|stack| - 1];
    if current in visited {
      SkipKeeps(adj, start, visited, order, stack);
      visited', order', stack' := visited, order, stack[..|stack| - 1];
    } else {
      VisitKeeps(adj, start, visited, order, stack);
      visited' := visited + {current};
      order' := order + [current];
      stack' := stack[..|stack| - 1] + Pushed(Succ(adj, current), visited');
      Shrinks(Names(adj, start), visited, visited');
    }
  }

  /** The DFS over the weight-erased view of `g`, as a visit order. */
  method DfsOrder(adj: Adj, start: string) returns (order: seq<string>)
    ensures |order| >= 1 && order[0] == start && Distinct(order)
    ensures forall v :: v in order <==> Reaches(adj, start, v)
    ensures forall i {:trigger FirstRule(adj, order, i)} :: 0 <= i < |order| - 1 ==> FirstRule(adj, order, i)
  {
    var visited: set<string> := {};
    var stack := [start];
    order := [];
    assert WalkFromTo(adj, [start], start, start);
    while |stack| > 0
      invariant DfsInv(adj, start, visited, order, stack)
      decreases |Names(adj, start) - visited|, |stack|
    {
      visited, order, stack := DfsStep(adj, start, visited, order, stack);
    }
    forall v, x | v in visited && x in Succ(adj, v)
      ensures x in visited
    {
      assert Covered(adj, visited, stack, v);
    }
    ClosedHoldsReach(adj, start, visited);
  }

  /** `Traversal::dfs`: an unknown start city yields nothing; otherwise the
      start comes first, every city reachable from it comes exactly once and
      nothing else, and a city's first neighbour, when not yet visited, is
      visited right after it. */
  method Dfs(g: Graph, start: string) returns (order: seq<string>)
    requires WellFormed(g)
    ensures start !in g ==> order == []
    ensures start in g ==> |order| >= 1 && order[0] == start
    ensures Distinct(order)
    ensures start in g ==> forall v :: v in order <==> Reaches(View(g), start, v)
    ensures forall i {:trigger FirstRule(View(g), order, i)} :: 0 <= i < |order| - 1 ==> FirstRule(View(g), order, i)
  {
    if start !in g {
      return [];
    }
    order := DfsOrder(View(g), start);
  }

  /** The second city visited by the DFS is the start's first neighbour,
      unless that neighbour is the start itself. */
  lemma DfsSecond(g: Graph, start: string, order: seq<string>)
    requires WellFormed(g) && start in g && |g[start]| > 0 && g[start][0].to != start
    requires |order| >= 1 && order[0] == start && Distinct(order)
    requires forall v :: v in order <==> Reaches(View(g), start, v)
    requires forall i {:trigger FirstRule(View(g), order, i)} :: 0 <= i < |order| - 1 ==> FirstRule(View(g), order, i)
    ensures |order| >= 2 && order[1] == g[start][0].to
  {
    var adj, x := View(g), g[start][0].to;
    assert Succ(adj, start)[0] == x;
    Extend(adj, [start], start, start, x);
    assert x in order;
    assert |order| >= 2;
    assert FirstRule(adj, order, 0);
    assert order[..1] == [start];
  }

  /** `Traversal::bfs`: an unknown start city yields nothing; otherwise the
      start comes first, every reachable city exactly once and nothing else,
      in nondecreasing number of hops from the start. */
  method BfsOrder(g: Graph, start: string) returns (order: seq<string>)
    requires WellFormed(g)
    ensures start !in g ==> order == []
    ensures start in g ==> |order| >= 1 && order[0] == start
    ensures Distinct(order)
    ensures start in g ==> forall v :: v in order <==> Reaches(View(g), start, v)
    ensures forall i, j, di: nat, dj: nat ::
              (0 <= i <= j < |order| && IsHopDist(View(g), start, order[i], di)
               && IsHopDist(View(g), start, order[j], dj)) ==> di <= dj
  {
    if start !in g {
      return [];
    }
    var parent;
    ghost var lvl;
    order, parent, lvl := Bfs.Explore(View(g), start, None);
    forall i, j, di: nat, dj: nat |
      0 <= i <= j < |order| && IsHopDist(View(g), start, order[i], di)
      && IsHopDist(View(g), start, order[j], dj)
      ensures di <= dj
    {
      assert order[i] in lvl && order[j] in lvl;
      HopDistUnique(View(g), start, order[i], di, lvl[order[i]]);
      HopDistUnique(View(g), start, order[j], dj, lvl[order[j]]);
    }
  }
}

=== FILE: wrappers.dfy ===
/** Option and Result values used where the modelled code returns an empty
    container, prints an error, or falls through on a failed parse. */
module Wrappers {

  datatype Option<+T> = None | Some(value: T)

  datatype Result<+R, +E> = Success(value: R) | Failure(error: E)
}
